=== FILE: README.md ===
# LeetCode daily bot: the HTML-to-Discord formatter

The bot fetches the daily LeetCode problem and posts it to a Discord webhook.
Its one piece of real logic is `formatHTMLContent` in
`client/discord_client.go`. It turns the problem statement, which is LeetCode
HTML, into Discord markdown. It works in a fixed order of stages:

1. literal rewrites of a known set of tags (`<p>`, `<pre>`, `<code>`, `<li>`,
   `<strong>`, …);
2. literal decoding of named entities (`&lt;`, `&gt;`, `&amp;`, …);
3. a literal `"\n\n\n"` → `"\n\n"` rewrite;
4. a catch-all strip of anything matching `<[^>]*>`;
5. newline-run collapsing, line-start trimming and blank-line squashing;
6. a hard 4000-byte budget.

Next to it are two small lookups. One maps the difficulty label to an embed
colour (`getDifficultyColor`). The other maps it to an emoji (the `switch` in
`formatDescription`).

This project models the formatter and the two lookups in Dafny and proves
properties of the model.

- Text is a byte sequence, as a Go `string` is. A byte is written as the
  character with the same code, so ASCII literals read as plain strings. The
  multi-byte UTF-8 literals (`"• "`, `"👉**"`, the emoji) are spelled out
  byte by byte.
- `strings.ReplaceAll` is modelled once, as `Replace.ReplaceAll`. The two
  rewrite tables are `Formatter.TagRules` (lines 162-188) and
  `Formatter.EntityRules` (lines 191-199), and they are applied in source
  order by `Replace.ApplyAll`.
- Each regular expression is written as a byte-at-a-time function:
  - `Stages.StripTags` for `<[^>]*>` (lines 205-206);
  - `Stages.CollapseFrom` for `\n{3,}` (lines 209-211, and again at 222);
  - `Stages.TrimFrom` for `(?m)^[ \t]+` (lines 214-215);
  - `Stages.SquashFrom` for `(?m)^[ \t]*\n` (lines 218-219).
- `Formatter.Clean` composes the stages in source order (lines 158-222).
  `Formatter.FormatHTMLContent` adds the empty-input shortcut (154-156) and
  the budget (225-229).

The output invariants are defined in module `Rendered`:

- `NoTag`: no `<` is followed anywhere later by `>`.
- `NoNewlineRun`: no three consecutive newlines.
- `NoIndent`: no line starts with a space or a tab.

The proofs follow the pipeline. Each invariant is established by one stage.
Every later stage is then shown to keep it, either because the stage only
deletes bytes (`Bytes.IsSubsequence`) or by a direct argument.

Two further modules give the rewrite tables a meaning of their own:

- `Pieces` reads a text as a list of plain stretches and whole tags.
  `Pieces.RewritePieces` rewrites it tag by tag: the first rule written for a
  tag replaces it, and nothing else changes. `Pieces.ApplyAllPieces` proves
  that the 21 literal tag rewrites, run one after the other over the whole
  string, do exactly this. `TagExamples` uses it for the list, example-marker,
  code-block and inline-code rewrites, with the inner text left open.
- `Decoding` proves what the entity table does for any table of its shape.
  `Entities` instantiates those results for the real table.
- `NewlineRuns` follows a run of blank lines through the whole formatter: the
  literal `"\n\n\n"` rewrite only shortens the run, and the collapse after the
  tag strip leaves exactly one blank line.

Each regular-expression stage is pinned down line by line, not only by the
invariant it establishes. `Stages.CollapseRun` and `Stages.CollapseKeepsLine`
fix what the collapse does to every text. `Stages.TrimLine` does the same for
the trim, and `Stages.SquashBlankLine` with `Stages.SquashKeepsLine` for the
squash.

Three behaviours of the code are modelled as written, even where a reader
would expect otherwise:

- **Decoded brackets are tags.** `&lt;` and `&gt;` are decoded (lines
  191-192) before the catch-all strip (205-206). So `"a &lt; c &gt; d"`
  becomes `"a  d"`, not `"a < c > d"`. An idealised decoder would give the
  latter. The model follows the code; see `Entities.DecodedBracketsStripped`.
- **Escaped entities are decoded by table order.** The entity rewrites are
  one pass each, in a fixed order. `&amp;lt;` becomes the text `&lt;`,
  because `&lt;` is rewritten before `&amp;`. But `&amp;quot;` becomes `"`,
  because `&quot;` is rewritten after `&amp;`. The same holds for `&nbsp;`
  and `&#39;` (`Entities.EscapedEntity`).
- **The blank-line squash (217-219) never has work to do.** The trim just
  before it has already emptied every whitespace-only line
  (`Formatter.SquashAfterTrimIsIdle`). The model keeps the squash anyway, in
  its place.

## Model

| member | source | states |
|---|---|---|
| Replace.ReplaceAll | client/discord_client.go:162-199 | a text in which the pattern does not occur comes back unchanged, and every byte of the result comes from the text or from the replacement |
| Replace.ReplaceAllSkips | client/discord_client.go:162-199 | bytes before any possible start of the pattern pass through untouched and the scan resumes after them |
| Replace.ReplaceAllAtFront | client/discord_client.go:162-199 | an occurrence is replaced and the scan resumes after it, so matches never overlap and replaced text is not rescanned |
| Replace.ReplaceAllMismatch | client/discord_client.go:162-199 | where text and pattern differ inside the pattern's length, the first byte is kept and the scan moves one byte on |
| Replace.ReplaceAllBySelf | client/discord_client.go:162-199 | replacing a pattern by itself leaves every text unchanged |
| Replace.ApplyAll | client/discord_client.go:159-199 | the rewrites run in order; a text containing none of the patterns is unchanged, and every output byte comes from the input or from some replacement |
| Replace.ApplyAllAppend | client/discord_client.go:159-199 | running one table of rewrites and then another is running the two tables joined, in that order |
| Rendered.NoTagSubsequence | client/discord_client.go:208-222 | deleting bytes from tag-free text cannot create a tag |
| Rendered.NoIndentNoBlankLine | client/discord_client.go:217-219 | in text with no indented line, every nonempty stretch from a line start has a byte that is not a space or tab, so no line is whitespace-only |
| Stages.StripTagsSpec | client/discord_client.go:204-206 | no `<` with a later `>` survives; the result is the input with bytes deleted; tag-free input is unchanged |
| Stages.StripTagsKeepsPlain | client/discord_client.go:205-206 | bytes before the first `<` pass through the strip unchanged |
| Stages.StripTagsDeletesTag | client/discord_client.go:205-206 | a `<`, bytes that are not `>`, and a `>` are deleted together, and the strip goes on after them |
| Stages.CollapseFromNoRun | client/discord_client.go:208-211 | the result has no run of three newlines, even counting the newlines just before it |
| Stages.CollapseFromDeletesNewlines | client/discord_client.go:208-211 | only newlines are deleted: removing all newlines from input and output gives the same text |
| Stages.CollapseRun | client/discord_client.go:208-211 | a run of newlines before a byte that is not a newline keeps as many newlines as bring the count, with those just before it, up to two: a run of three or more becomes exactly two, a shorter one is kept |
| Stages.CollapseKeepsLine | client/discord_client.go:208-211 | the bytes of a line are copied as they are and the count of newlines starts over after them; with `CollapseRun` this fixes the collapse on every text |
| Stages.CollapseFromUnchanged | client/discord_client.go:208-211 | text without a run of three newlines is unchanged |
| Stages.CollapseKeepsNoIndent | client/discord_client.go:221-222 | collapsing newline runs never brings back an indented line |
| Stages.TrimFromSpec | client/discord_client.go:213-215 | no line of the result starts with a space or tab; only spaces and tabs are deleted; unindented text is unchanged |
| Stages.TrimDropsIndent | client/discord_client.go:213-215 | all the spaces and tabs that open a line are deleted |
| Stages.TrimKeepsLineRest | client/discord_client.go:213-215 | after a line's first byte, every byte up to the newline is kept, spaces and tabs included |
| Stages.TrimLine | client/discord_client.go:213-215 | a line made of spaces and tabs, then text that does not start with one, comes out as that text alone, and the next line is trimmed in turn; so it goes for the last line too |
| Stages.SquashFromDeletesBlanks | client/discord_client.go:217-219 | the squash only deletes spaces and tabs |
| Stages.SquashBlankLine | client/discord_client.go:217-219 | a line of only spaces and tabs ended by a newline is reduced to the newline and the squash goes on at the next line; such a line without a newline at the end of the text is kept |
| Stages.SquashKeepsLineRest | client/discord_client.go:217-219 | after a line's first byte, every byte up to the newline is kept |
| Stages.SquashKeepsLine | client/discord_client.go:217-219 | a line holding a byte other than space and tab is kept whole, and the squash starts again at the start of the next line; the last such line is kept too |
| Stages.SquashResumesAtLine | client/discord_client.go:217-219 | a newline ends a line and the squash resumes in line-start mode after it, as `(?m)^` matches after every newline |
| Stages.SquashFromUnchanged | client/discord_client.go:217-219 | on text with no indented line the squash changes nothing |
| Stages.Truncate | client/discord_client.go:224-229 | at most 4000 bytes; longer text becomes its first 3997 bytes followed by `"..."`, exactly 4000 bytes; shorter text is returned unchanged; every byte of the result is a byte of the input or a `.` |
| Stages.TruncateKeepsInvariants | client/discord_client.go:224-227 | the cut keeps tag-freedom, the newline-run bound and unindented lines |
| Formatter.FormatHTMLContent | client/discord_client.go:153-230 | for every input: at most 4000 bytes, no tag, no run of three newlines, no indented line |
| Formatter.CleanKeepsInvariants | client/discord_client.go:158-222 | the stages before the budget leave no tag, no newline run and no indented line |
| Formatter.StripOnwardsKeepsInvariants | client/discord_client.go:204-222 | the regular-expression stages, on any text, leave no tag, no newline run and no indented line |
| Formatter.CleanAfterTags | client/discord_client.go:190-222 | once the tag rewrites leave text with no `<`, no `&`, no indented line and no newline run, no later stage before the budget changes it |
| Formatter.DecodeAndShortenIdle | client/discord_client.go:190-202 | entity decoding and the literal newline rewrite leave such text unchanged |
| Formatter.LateStagesUnchanged | client/discord_client.go:208-222 | text with no newline run and no indented line passes the last four stages unchanged |
| Formatter.CleanInputUnchanged | client/discord_client.go:153-229 | input with no `<`, no `&`, no indented line, no newline run and at most 4000 bytes is returned unchanged (the empty input included) |
| Formatter.MarkupFreeIdempotent | client/discord_client.go:153-229 | for every input without `<` or `&`, indented text, newline runs and over-long text included, formatting twice gives the same as formatting once |
| Formatter.MarkupFreeClean | client/discord_client.go:158-222 | the stages bring no `<` or `&` into text that has none |
| Formatter.StripOnwardsKeepsAbsent | client/discord_client.go:204-222 | the regular-expression stages only delete bytes, so a byte missing from their input is missing from their output |
| Formatter.NoNewlineRunNoTriple | client/discord_client.go:201-202 | text without a newline run contains no `"\n\n\n"` for the literal rewrite to act on |
| Formatter.SquashAfterTrimIsIdle | client/discord_client.go:213-219 | after the line-start trim the blank-line squash changes nothing |
| Formatter.BudgetEnforced | client/discord_client.go:153-229 | for every input, the empty one included: the cleaned text is returned when within 4000 bytes, else its first 3997 bytes and `"..."`, exactly 4000 bytes |
| Formatter.CleanEmpty | client/discord_client.go:158-222 | the stages map the empty text to the empty text, so the empty-input shortcut changes no result |
| NewlineRuns.ShortenRun | client/discord_client.go:201-202 | the literal rewrite turns a run of `k` newlines before a line into a run of `2 * (k / 3) + k % 3`, replacing whole groups of three left to right |
| NewlineRuns.CollapsedToTwo | client/discord_client.go:208-211 | two lines around a run of two or more newlines come out with exactly two newlines between them |
| NewlineRuns.NewlineRunCollapsed | client/discord_client.go:153-229 | two unindented lines without markup, around a run of three or more newlines, are formatted into the two lines around one blank line |
| NewlineRuns.FiveNewlines | client/discord_client.go:153-229 | `"line1\n\n\n\n\nline2"` is formatted to `"line1\n\nline2"` |
| Pieces.ReplaceAllPieces | client/discord_client.go:162-188 | one literal rewrite of a whole tag replaces exactly the tags equal to its pattern and leaves plain text and other tags alone |
| Pieces.ApplyAllPieces | client/discord_client.go:162-188 | on text made of plain stretches and whole tags, the rewrites run in order give the tag-by-tag rewrite: a replacement is never rewritten again by a later rule and plain text is never touched |
| Pieces.FirstRuleWins | client/discord_client.go:162-188 | a tag is replaced by the first rule written for it, whatever rules come later |
| TagExamples.TagRulesAreTags | client/discord_client.go:162-188 | every pattern of the tag table is one whole tag, and no replacement holds a `<` |
| TagExamples.KnownTagsRewritten | client/discord_client.go:153-229 | input made of plain stretches and tags, the empty input included, is formatted into its tag-by-tag rewrite whenever that rewrite has no `<`, no `&`, no indented line, no newline run and at most 4000 bytes |
| TagExamples.StrongExampleRule | client/discord_client.go:178-180 | `<strong class="example">` becomes the pointing hand and `**`, not the plain `<strong>` rewrite |
| TagExamples.ListExample | client/discord_client.go:172-175 | `<ul><li>a</li><li>b</li></ul>` with one-line items becomes `"• a\n• b\n"` |
| TagExamples.StrongExample | client/discord_client.go:179-180 | `<strong class="example">x</strong>` becomes `"👉**x**"` |
| TagExamples.PreExample | client/discord_client.go:166-167 | `<pre>x</pre>` with an unindented one-line `x` becomes the fence, a newline, `x`, a newline and the fence |
| TagExamples.CodeExample | client/discord_client.go:168-169 | `<code>x</code>` becomes `` `x` `` |
| Decoding.DecodeOne | client/discord_client.go:191-199 | in a table of the entity table's shape, one entity amid text with no `&`, `<` or `>`, whose replacement brings no `&`, is replaced by its rule and nothing else changes |
| Decoding.AmpAlone | client/discord_client.go:191-199 | in a table of the entity table's shape, a lone `&amp;` amid text with no `&`, `<` or `>` decodes to `&`, unless the byte after it turns that `&` into an entity rewritten after `&amp;` |
| Decoding.EscapedOne | client/discord_client.go:191-199 | `&amp;` followed by the rest of an entity comes out as the entity when the entity is rewritten before `&amp;`, and as its replacement when it is rewritten after |
| Decoding.TagAmidPlain | client/discord_client.go:197-199 | the three tag deletions after the entities either keep one whole tag amid plain text or delete it, and touch nothing else |
| Entities.EntityRulesShape | client/discord_client.go:191-199 | the real entity table has that shape: six entities told apart by their second byte, `&amp;` third, then three whole tags deleted |
| Entities.EntityDecoded | client/discord_client.go:191-196 | every entity but `&amp;`, amid text with no `&`, `<` or `>`, is decoded to its replacement and nothing else changes |
| Entities.AmpDecoded | client/discord_client.go:191-199 | `a&amp;b` becomes `a&b` when neither side holds `&`, `<` or `>` and `b` does not start with `q`, `n` or `#` |
| Entities.EscapedEntity | client/discord_client.go:191-196 | `&amp;lt;`, `&amp;gt;` and `&amp;amp;` become `&lt;`, `&gt;` and `&amp;`; `&amp;quot;`, `&amp;nbsp;` and `&amp;#39;` are decoded all the way |
| Entities.DecodedBracketsStripped | client/discord_client.go:191-206 | one line `a&lt;c&gt;d` without other markup is formatted to `a` followed by `d`: the decoded brackets are stripped as a tag with all they enclose |
| Difficulty.DifficultyColor | client/discord_client.go:85-95 | a 24-bit colour; the fallback 5793266 exactly when the label is not `Easy`, `Medium` or `Hard` |
| Difficulty.DifficultyEmoji | client/discord_client.go:62-70 | one 4-byte UTF-8 glyph; the fallback 🧮 exactly when the label is not one of the three |
| Difficulty.ClassifyExact | client/discord_client.go:63-69 | only the three exact, case-sensitive labels are recognised |
| Difficulty.DecorationsDistinguishLevels | client/discord_client.go:85-95 | two labels get the same colour, and the same glyph, exactly when they fall in the same level |

## Left out

- HTTP and JSON plumbing are not modelled: `PostDailyChallenge`, `createDiscordPayload`, `createWebhookRequest`, all of `client/http_client.go`, and `client/dsa_client.go`. They are network and `json.Marshal` calls.
- `createThread` is not modelled. It reads an environment variable, does network I/O, and is never called.
- `formatDate` is not modelled. It is Go's `time.Parse`/`Format`, a foreign library.
- The message template in `formatDescription` (the `fmt.Sprintf` around the emoji and the formatted content) is not modelled; only its emoji switch is.
- Orchestration, configuration and logging are not modelled: `service/daily_bot_service.go`, `main.go` and `error/error.go`. Neither are the plain data holders in `model/`.
- UTF-8 validity is not modelled. The cut at line 226 is a byte cut and can split a multi-byte character, as the code does; nothing is claimed about runes.
- General regular-expression semantics are not modelled. Only the four patterns the formatter uses are written out.
- TagExamples.ListExample: stated for items that stay on one line and hold no `<` or `&`. Other items go through the same rewrite (`TagExamples.KnownTagsRewritten`), but whether the later stages change them depends on their content.
- TagExamples.StrongExample: stated for one line of inner text without `<` or `&`, for the same reason.
- TagExamples.CodeExample: stated for one line of inner text without `<` or `&`, for the same reason.
- TagExamples.PreExample: stated for one line of inner text without `<` or `&` that does not start with a space or tab, for the same reason.
- Entities.EscapedEntity: stated for one escaped entity amid text with no `&`, `<` or `>`. With several entities the outcome depends on how their bytes meet.
- Entities.EntityDecoded: stated for one entity amid text with no `&`, `<` or `>`, for the same reason. It also leaves out `&amp;`, whose decoded `&` can join the bytes after it into an entity rewritten later, as in `&amp;quot;`. `Entities.AmpDecoded` covers `&amp;` when the next byte cannot do that, and `Entities.EscapedEntity` covers it when it can.
- Entities.DecodedBracketsStripped: stated for text on one line with no other markup, so that the later stages have nothing else to do.
- TagExamples.KnownTagsRewritten: stated only for input whose rewrite is already clean. On other input the later stages still apply, and `Formatter.FormatHTMLContent` gives the invariants.
- NewlineRuns.NewlineRunCollapsed: stated for two lines with no `<` or `&` that do not start with a space or tab, so that the stages other than the two newline rewrites have nothing to do. Runs amid other text are covered stage by stage by `Stages.CollapseRun` and `Stages.CollapseKeepsLine`.

=== FILE: bytes.dfy ===
/** Byte strings, as Go's `string` holds them.

    A byte is written as the character whose code point equals the byte's
    value (the Latin-1 reading), so ASCII literals such as "<p>" are byte
    strings as they stand and a multi-byte UTF-8 sequence is spelled out one
    byte per character ("\U{E2}\U{80}\U{A2}" is the bullet U+2022). `|s|` is
    then Go's `len(s)`, and slicing cuts bytes, as Go does. */
module Bytes {

  type Byte = c: char | c as int < 0x100

  type Text = seq<Byte>

  const NL: Byte := '\n'
  const TAB: Byte := '\t'
  const SP: Byte := ' '
  const LT: Byte := '<'
  const GT: Byte := '>'
  const AMP: Byte := '&'

  /** The two bytes the regex class `[ \t]` matches. */
  const Blanks: set<Byte> := {SP, TAB}

  predicate IsBlank(b: Byte) {
    b in Blanks
  }

  /** `n` copies of `b`; `Repeat(NL, k)` is a run of `k` newlines. */
  function Repeat(b: Byte, n: nat): (r: Text)
    ensures |r| == n
    ensures forall i :: 0 <= i < n ==> r[i] == b
  {
    seq(n, _ => b)
  }

  lemma Regroup(a: Text, m: Text, b: Text)
    ensures a + m + b == a + (m + b)
  {
  }

  /** `a` can be obtained from `b` by deleting bytes. */
  predicate IsSubsequence(a: Text, b: Text)
    decreases |a| + |b|
  {
    a == [] ||
    (b != [] &&
     ((a[0] == b[0] && IsSubsequence(a[1..], b[1..])) || IsSubsequence(a, b[1..])))
  }

  /** `s` with every byte of `drop` deleted. */
  function Erase(s: Text, drop: set<Byte>): (r: Text)
    ensures forall b :: b in r ==> b in s && b !in drop
  {
    if s == [] then []
    else if s[0] in drop then Erase(s[1..], drop)
    else [s[0]] + Erase(s[1..], drop)
  }

  lemma {:induction false} SubsequenceMembers(a: Text, b: Text, x: Byte)
    requires IsSubsequence(a, b)
    requires x in a
    ensures x in b
    decreases |a| + |b|
  {
    if a[0] == b[0] && IsSubsequence(a[1..], b[1..]) {
      if x != a[0] {
        SubsequenceMembers(a[1..], b[1..], x);
      }
    } else {
      SubsequenceMembers(a, b[1..], x);
    }
  }

  /** A byte that `b` lacks is missing from every subsequence of `b`. */
  lemma {:induction false} SubsequenceAbsent(a: Text, b: Text, x: Byte)
    requires IsSubsequence(a, b)
    requires x !in b
    ensures x !in a
    decreases |a| + |b|
  {
    if a != [] {
      if a[0] == b[0] && IsSubsequence(a[1..], b[1..]) {
        SubsequenceAbsent(a[1..], b[1..], x);
      } else {
        SubsequenceAbsent(a, b[1..], x);
      }
    }
  }

  /** Keeping the first `k` bytes of `b` deleted still leaves a subsequence of `b`. */
  lemma {:induction false} SubsequenceOfSuffix(a: Text, b: Text, k: nat)
    requires k <= |b|
    requires IsSubsequence(a, b[k..])
    ensures IsSubsequence(a, b)
    decreases k
  {
    if k > 0 {
      assert b[k..] == b[1..][k - 1..];
      SubsequenceOfSuffix(a, b[1..], k - 1);
    }
  }

  /** Deleting a run of bytes that all belong to `drop` does not change what `Erase` keeps. */
  lemma {:induction false} EraseSkip(s: Text, k: nat, drop: set<Byte>)
    requires k <= |s|
    requires forall i :: 0 <= i < k ==> s[i] in drop
    ensures Erase(s, drop) == Erase(s[k..], drop)
    decreases k
  {
    if k > 0 {
      assert s[k..] == s[1..][k - 1..];
      EraseSkip(s[1..], k - 1, drop);
    }
  }
}

=== FILE: decoding.dfy ===
/** Entity decoding by a table of literal rewrites, for any table of the
    entity table's shape: an entity amid plain text is decoded, and an entity
    escaped by `&amp;` is unescaped once and then decoded by the rules after
    `&amp;`. */
module Decoding {
  import opened Bytes
  import opened Replace
  import opened Pieces

  /** The shape of the entity table that its decoding behaviour rests on:
      six entities, each an `&` followed by bytes other than `&` and `<` and
      told apart by their second byte, then three whole tags that are
      deleted; `&lt;` and `&gt;` first, decoded to the brackets, and `&amp;`
      third; no replacement but that of `&amp;` brings an `&`, and none brings
      both brackets. */
  ghost predicate EntityTable(rules: seq<Rule>) {
    |rules| == 9 && WellFormed(rules) &&
    (forall i :: 0 <= i < 6 ==>
       |rules[i].pat| >= 2 && rules[i].pat[0] == AMP && AMP !in rules[i].pat[1..] && LT !in rules[i].pat) &&
    (forall i, j :: 0 <= i < j < 6 ==> rules[i].pat[1] != rules[j].pat[1]) &&
    (forall i :: 6 <= i < 9 ==> TagShaped(rules[i].pat) && rules[i].rep == []) &&
    rules[0].rep == "<" && rules[1].rep == ">" &&
    rules[2].pat == "&amp;" && rules[2].rep == "&" &&
    (forall i :: 0 <= i < 6 && i != 2 ==> AMP !in rules[i].rep) &&
    (forall i :: 0 <= i < 6 ==> LT !in rules[i].rep || GT !in rules[i].rep)
  }

  /** In text whose only `&` opens `e`, a pattern that also opens with `&`
      but differs from `e` in its second byte does not occur. */
  lemma AmpOnlyAt(a: Text, e: Text, b: Text, pat: Text)
    requires AMP !in a && AMP !in b
    requires |e| >= 2 && e[0] == AMP && AMP !in e[1..]
    requires |pat| >= 2 && pat[0] == AMP && pat[1] != e[1]
    ensures !Occurs(pat, a + e + b)
  {
    var s := a + e + b;
    forall i
      ensures !OccursAt(pat, s, i)
    {
      if 0 <= i && i + |pat| <= |s| {
        var w := s[i..i + |pat|];
        assert w[0] == s[i] && w[1] == s[i + 1];
        if i < |a| {
          assert s[i] == a[i];
        } else if i == |a| {
          assert s[i + 1] == e[1];
        } else if i < |a| + |e| {
          assert s[i] == e[1..][i - |a| - 1];
        } else {
          assert s[i] == b[i - |a| - |e|];
        }
      }
    }
  }

  /** The one occurrence of an entity is replaced. */
  lemma ReplaceEntity(a: Text, e: Text, b: Text, rep: Text)
    requires AMP !in a && AMP !in b
    requires |e| > 0 && e[0] == AMP
    ensures ReplaceAll(a + e + b, e, rep) == a + rep + b
  {
    assert a + e + b == a + (e + b);
    ReplaceAllSkips(a, e + b, e, rep);
    ReplaceAllAtFront(b, e, rep);
    AbsentByte(e, b, 0);
  }

  lemma SingleRule(s: Text, r: Rule)
    requires |r.pat| > 0
    ensures ApplyAll(s, [r]) == ReplaceAll(s, r.pat, r.rep)
  {
    assert [r][1..] == [];
  }

  /** One entity of a table, amid text with no `&`, `<` or `>`: the rules
      before it open with `&` but differ from it in their second byte, its
      replacement brings no `&` and not both brackets, and every rule after
      it needs an `&`, or a `<` with a later `>`. */
  lemma DecodeOne(a: Text, b: Text, rules: seq<Rule>, k: nat)
    requires WellFormed(rules) && k < |rules|
    requires AMP !in a && LT !in a && GT !in a
    requires AMP !in b && LT !in b && GT !in b
    requires |rules[k].pat| >= 2 && rules[k].pat[0] == AMP && AMP !in rules[k].pat[1..]
    requires forall i :: 0 <= i < k ==>
               |rules[i].pat| >= 2 && rules[i].pat[0] == AMP && rules[i].pat[1] != rules[k].pat[1]
    requires AMP !in rules[k].rep && (LT !in rules[k].rep || GT !in rules[k].rep)
    requires forall j :: k < j < |rules| ==>
               rules[j].pat[0] == AMP || (rules[j].pat[0] == LT && rules[j].pat[|rules[j].pat| - 1] == GT)
    ensures ApplyAll(a + rules[k].pat + b, rules) == a + rules[k].rep + b
  {
    var t := a + rules[k].pat + b;
    BeforeEntityIdle(a, b, rules, k);
    ReplaceEntity(a, rules[k].pat, b, rules[k].rep);
    AfterEntityIdle(a, b, rules, k);
    assert rules == rules[..k] + [rules[k]] + rules[k + 1..];
    ApplyAllAround(t, a + rules[k].rep + b, rules[..k], rules[k], rules[k + 1..]);
  }

  /** A lone `&amp;` amid text with no `&`, `<` or `>` decodes to `&`, as
      long as the byte after it does not make the `&` open one of the
      entities rewritten after `&amp;`. */
  lemma AmpAlone(a: Text, b: Text, rules: seq<Rule>)
    requires EntityTable(rules)
    requires AMP !in a && LT !in a && GT !in a
    requires AMP !in b && LT !in b && GT !in b
    requires b == [] || forall i :: 3 <= i < 6 ==> rules[i].pat[1] != b[0]
    ensures ApplyAll(a + rules[2].pat + b, rules) == a + [AMP] + b
  {
    var t := a + rules[2].pat + b;
    var u := a + [AMP] + b;
    BeforeAmpIdle(a, b, rules);
    ReplaceEntity(a, rules[2].pat, b, rules[2].rep);
    AfterAmpIdle(a, b, rules);
    AroundAmp(rules);
    ApplyAllAround(t, u, rules[..2], rules[2], rules[3..]);
  }

  lemma AroundAmp(rules: seq<Rule>)
    requires |rules| >= 3
    ensures rules == rules[..2] + [rules[2]] + rules[3..]
  {
  }

  /** The entities after `&amp;` differ from the decoded `&` and the byte
      after it, and the tags need a `<`. */
  lemma AfterAmpIdle(a: Text, b: Text, rules: seq<Rule>)
    requires EntityTable(rules)
    requires AMP !in a && LT !in a && AMP !in b && LT !in b
    requires b == [] || forall i :: 3 <= i < 6 ==> rules[i].pat[1] != b[0]
    ensures WellFormed(rules[3..])
    ensures ApplyAll(a + [AMP] + b, rules[3..]) == a + [AMP] + b
  {
    var u := a + [AMP] + b;
    var after := rules[3..];
    forall j | 0 <= j < |after|
      ensures !Occurs(after[j].pat, u)
    {
      var pat := after[j].pat;
      assert pat == rules[3 + j].pat;
      if j < 3 {
        AmpNotOpening(a, b, pat);
      } else {
        assert pat[0] == LT;
        AbsentByte(pat, u, 0);
      }
    }
  }

  /** An entity whose second byte is not the one after the only `&` does not
      occur. */
  lemma AmpNotOpening(a: Text, b: Text, pat: Text)
    requires AMP !in a && AMP !in b
    requires |pat| >= 2 && pat[0] == AMP
    requires b == [] || pat[1] != b[0]
    ensures !Occurs(pat, a + [AMP] + b)
  {
    var u := a + [AMP] + b;
    if b == [] {
      forall i
        ensures !OccursAt(pat, u, i)
      {
        if 0 <= i && i + |pat| <= |u| {
          assert u[i..i + |pat|][0] == u[i];
          assert u[i] == a[i];
        }
      }
    } else {
      var e := [AMP, b[0]];
      assert u == a + e + b[1..];
      assert AMP !in b[1..];
      AmpOnlyAt(a, e, b[1..], pat);
    }
  }

  /** The rules before the entity differ from it in their second byte. */
  lemma BeforeEntityIdle(a: Text, b: Text, rules: seq<Rule>, k: nat)
    requires WellFormed(rules) && k < |rules|
    requires AMP !in a && AMP !in b
    requires |rules[k].pat| >= 2 && rules[k].pat[0] == AMP && AMP !in rules[k].pat[1..]
    requires forall i :: 0 <= i < k ==>
               |rules[i].pat| >= 2 && rules[i].pat[0] == AMP && rules[i].pat[1] != rules[k].pat[1]
    ensures WellFormed(rules[..k])
    ensures ApplyAll(a + rules[k].pat + b, rules[..k]) == a + rules[k].pat + b
  {
    var before := rules[..k];
    forall i | 0 <= i < |before|
      ensures !Occurs(before[i].pat, a + rules[k].pat + b)
    {
      AmpOnlyAt(a, rules[k].pat, b, before[i].pat);
    }
  }

  /** The rules after the entity need an `&`, or a `<` with a later `>`,
      and the decoded text has neither. */
  lemma AfterEntityIdle(a: Text, b: Text, rules: seq<Rule>, k: nat)
    requires WellFormed(rules) && k < |rules|
    requires AMP !in a && LT !in a && GT !in a
    requires AMP !in b && LT !in b && GT !in b
    requires AMP !in rules[k].rep && (LT !in rules[k].rep || GT !in rules[k].rep)
    requires forall j :: k < j < |rules| ==>
               rules[j].pat[0] == AMP || (rules[j].pat[0] == LT && rules[j].pat[|rules[j].pat| - 1] == GT)
    ensures WellFormed(rules[k + 1..])
    ensures ApplyAll(a + rules[k].rep + b, rules[k + 1..]) == a + rules[k].rep + b
  {
    var u := a + rules[k].rep + b;
    var after := rules[k + 1..];
    forall j | 0 <= j < |after|
      ensures !Occurs(after[j].pat, u)
    {
      var pat := after[j].pat;
      assert pat == rules[k + 1 + j].pat;
      if pat[0] == AMP {
        AbsentByte(pat, u, 0);
      } else if LT !in u {
        AbsentByte(pat, u, 0);
      } else {
        AbsentByte(pat, u, |pat| - 1);
      }
    }
  }

  /** Rules that all need an `&` differing from the one entity in the text in
      its second byte, or a `<` the text lacks, change nothing. */
  lemma {:induction false} OthersIdle(a: Text, e: Text, b: Text, rules: seq<Rule>)
    requires WellFormed(rules)
    requires AMP !in a && LT !in a && AMP !in b && LT !in b
    requires |e| >= 2 && e[0] == AMP && AMP !in e[1..] && LT !in e
    requires forall j :: 0 <= j < |rules| ==>
               (|rules[j].pat| >= 2 && rules[j].pat[0] == AMP && rules[j].pat[1] != e[1]) || rules[j].pat[0] == LT
    ensures ApplyAll(a + e + b, rules) == a + e + b
  {
    forall j | 0 <= j < |rules|
      ensures !Occurs(rules[j].pat, a + e + b)
    {
      if rules[j].pat[0] == LT {
        AbsentByte(rules[j].pat, a + e + b, 0);
      } else {
        AmpOnlyAt(a, e, b, rules[j].pat);
      }
    }
  }

  lemma EscapedOne(a: Text, b: Text, rules: seq<Rule>, k: nat)
    requires EntityTable(rules) && k < 6
    requires AMP !in a && LT !in a && GT !in a
    requires AMP !in b && LT !in b && GT !in b
    ensures ApplyAll(a + rules[2].pat + rules[k].pat[1..] + b, rules)
         == a + (if k <= 2 then rules[k].pat else rules[k].rep) + b
  {
    var t := a + rules[2].pat + rules[k].pat[1..] + b;
    UnescapeAmp(a, b, rules, k);
    if k <= 2 {
      KeptAfterAmp(a, b, rules, k);
    } else {
      DecodedAfterAmp(a, b, rules, k);
    }
    assert rules == rules[..3] + rules[3..];
    ApplyAllAppend(t, rules[..3], rules[3..]);
  }

  /** The first three rules turn the escaped entity into the entity. */
  lemma UnescapeAmp(a: Text, b: Text, rules: seq<Rule>, k: nat)
    requires EntityTable(rules) && k < 6
    requires AMP !in a && AMP !in b
    ensures WellFormed(rules[..3])
    ensures ApplyAll(a + rules[2].pat + rules[k].pat[1..] + b, rules[..3]) == a + rules[k].pat + b
  {
    var t := a + rules[2].pat + (rules[k].pat[1..] + b);
    assert a + rules[2].pat + rules[k].pat[1..] + b == t;
    BeforeAmpIdle(a, rules[k].pat[1..] + b, rules);
    AmpDecoded(a, b, rules[2], rules[k].pat);
    assert rules[..3] == rules[..2] + [rules[2]];
    ApplyAllAppend(t, rules[..2], [rules[2]]);
  }

  /** `&lt;` and `&gt;` find nothing in an escaped entity. */
  lemma BeforeAmpIdle(a: Text, c: Text, rules: seq<Rule>)
    requires EntityTable(rules)
    requires AMP !in a && AMP !in c
    ensures WellFormed(rules[..2])
    ensures ApplyAll(a + rules[2].pat + c, rules[..2]) == a + rules[2].pat + c
  {
    var first := rules[..2];
    forall i | 0 <= i < 2
      ensures !Occurs(first[i].pat, a + rules[2].pat + c)
    {
      AmpOnlyAt(a, rules[2].pat, c, first[i].pat);
    }
  }

  /** `&amp;` gives back the `&` of the entity it escapes. */
  lemma AmpDecoded(a: Text, b: Text, amp: Rule, e: Text)
    requires |amp.pat| > 0 && amp.pat[0] == AMP && amp.rep == [AMP]
    requires |e| >= 2 && e[0] == AMP && AMP !in e[1..]
    requires AMP !in a && AMP !in b
    ensures ApplyAll(a + amp.pat + (e[1..] + b), [amp]) == a + e + b
  {
    SingleRule(a + amp.pat + (e[1..] + b), amp);
    AmpReplaced(a, b, amp.pat, e);
  }

  lemma AmpReplaced(a: Text, b: Text, pat: Text, e: Text)
    requires |pat| > 0 && pat[0] == AMP
    requires |e| >= 2 && e[0] == AMP && AMP !in e[1..]
    requires AMP !in a && AMP !in b
    ensures ReplaceAll(a + pat + (e[1..] + b), pat, [AMP]) == a + e + b
  {
    assert AMP !in e[1..] + b;
    ReplaceEntity(a, pat, e[1..] + b, [AMP]);
    RejoinHead(a, e, b);
  }

  lemma RejoinHead(a: Text, e: Text, b: Text)
    requires |e| > 0
    ensures a + [e[0]] + (e[1..] + b) == a + e + b
  {
    assert e == [e[0]] + e[1..];
  }

  /** `&lt;`, `&gt;` and `&amp;` come before the rest of the table, which
      has nothing to act on in them. */
  lemma KeptAfterAmp(a: Text, b: Text, rules: seq<Rule>, k: nat)
    requires EntityTable(rules) && k <= 2
    requires AMP !in a && LT !in a && AMP !in b && LT !in b
    ensures WellFormed(rules[3..])
    ensures ApplyAll(a + rules[k].pat + b, rules[3..]) == a + rules[k].pat + b
  {
    var e := rules[k].pat;
    var rest := rules[3..];
    forall j | 0 <= j < |rest|
      ensures (|rest[j].pat| >= 2 && rest[j].pat[0] == AMP && rest[j].pat[1] != e[1]) || rest[j].pat[0] == LT
    {
      assert rest[j] == rules[j + 3];
    }
    OthersIdle(a, e, b, rest);
  }

  /** `&quot;`, `&nbsp;` and `&#39;` come after `&amp;`, so the rest of the
      table still decodes them. */
  lemma DecodedAfterAmp(a: Text, b: Text, rules: seq<Rule>, k: nat)
    requires EntityTable(rules) && 3 <= k < 6
    requires AMP !in a && LT !in a && GT !in a
    requires AMP !in b && LT !in b && GT !in b
    ensures WellFormed(rules[3..])
    ensures ApplyAll(a + rules[k].pat + b, rules[3..]) == a + rules[k].rep + b
  {
    var rest := rules[3..];
    assert rest[k - 3] == rules[k];
    forall i | 0 <= i < k - 3
      ensures |rest[i].pat| >= 2 && rest[i].pat[0] == AMP && rest[i].pat[1] != rest[k - 3].pat[1]
    {
      assert rest[i] == rules[i + 3];
    }
    forall j | k - 3 < j < |rest|
      ensures rest[j].pat[0] == AMP || (rest[j].pat[0] == LT && rest[j].pat[|rest[j].pat| - 1] == GT)
    {
      assert rest[j] == rules[j + 3];
    }
    DecodeOne(a, b, rest, k - 3);
  }

  /** An entity whose pattern does not occur after it, amid text with no `&`
      before it, is the one occurrence replaced. */
  lemma ReplaceLoneEntity(a: Text, e: Text, b: Text, rep: Text)
    requires AMP !in a
    requires |e| > 0 && e[0] == AMP && !Occurs(e, b)
    ensures ReplaceAll(a + e + b, e, rep) == a + rep + b
  {
    var tail := e + b;
    Regroup(a, e, b);
    ReplaceAllSkips(a, tail, e, rep);
    ReplaceAllAtFront(b, e, rep);
    assert ReplaceAll(b, e, rep) == b;
    Regroup(a, rep, b);
  }

  /** `&lt;` and then `&gt;` are decoded into the brackets they stand for,
      whatever stands between them. */
  lemma BracketEntitiesDecoded(a: Text, c: Text, d: Text, rules: seq<Rule>)
    requires EntityTable(rules)
    requires AMP !in a && AMP !in c && AMP !in d
    ensures ApplyAll(a + rules[0].pat + c + rules[1].pat + d, rules)
         == ApplyAll(a + [LT] + c + [GT] + d, rules[2..])
  {
    var t := a + rules[0].pat + c + rules[1].pat + d;
    var t1 := a + [LT] + c + rules[1].pat + d;
    ApplyAllCons(t, rules);
    LtDecoded(a, c, d, rules[0].pat, rules[1].pat);
    ApplyAllCons(t1, rules[1..]);
    GtDecoded(a, c, d, rules[1].pat);
    assert rules[1..][1..] == rules[2..];
  }

  lemma LtDecoded(a: Text, c: Text, d: Text, lt: Text, gt: Text)
    requires |lt| >= 2 && lt[0] == AMP
    requires |gt| >= 2 && gt[0] == AMP && AMP !in gt[1..] && gt[1] != lt[1]
    requires AMP !in a && AMP !in c && AMP !in d
    ensures ReplaceAll(a + lt + c + gt + d, lt, [LT]) == a + [LT] + c + gt + d
  {
    AmpOnlyAt(c, gt, d, lt);
    Regroup(a, lt, c + gt + d);
    Regroup3(a, lt, c, gt, d);
    ReplaceLoneEntity(a, lt, c + gt + d, [LT]);
    Regroup3(a, [LT], c, gt, d);
  }

  lemma GtDecoded(a: Text, c: Text, d: Text, gt: Text)
    requires |gt| > 0 && gt[0] == AMP
    requires AMP !in a && AMP !in c && AMP !in d
    ensures ReplaceAll(a + [LT] + c + gt + d, gt, [GT]) == a + [LT] + c + [GT] + d
  {
    assert AMP !in a + [LT] + c;
    ReplaceEntity(a + [LT] + c, gt, d, [GT]);
  }

  lemma Regroup3(a: Text, e: Text, c: Text, f: Text, d: Text)
    ensures a + e + c + f + d == a + e + (c + f + d)
  {
  }

  /** After the brackets are decoded, the entities left find no `&` and the
      tag rules delete the bracketed text when it is one of their tags. */
  lemma DecodedBracketsLeft(a: Text, c: Text, d: Text, rules: seq<Rule>)
    requires EntityTable(rules)
    requires AMP !in a && AMP !in c && AMP !in d
    requires LT !in a && LT !in d && LT !in c && GT !in c
    ensures var r := ApplyAll(a + [LT] + c + [GT] + d, rules[2..]);
            r == a + [LT] + c + [GT] + d || r == a + d
  {
    var u := a + [LT] + c + [GT] + d;
    NoAmpAround(a, c, d);
    AmpEntitiesIdle(u, rules);
    SplitAfterEntities(rules);
    ApplyAllAppend(u, rules[2..6], rules[6..]);
    TableTags(rules);
    BracketTagRewritten(a, c, d, rules[6..]);
  }

  lemma NoAmpAround(a: Text, c: Text, d: Text)
    requires AMP !in a && AMP !in c && AMP !in d
    ensures AMP !in a + [LT] + c + [GT] + d
  {
  }

  lemma SplitAfterEntities(rules: seq<Rule>)
    requires |rules| >= 6
    ensures rules[2..] == rules[2..6] + rules[6..]
  {
  }

  /** The entities after `&lt;` and `&gt;` need an `&`. */
  lemma AmpEntitiesIdle(u: Text, rules: seq<Rule>)
    requires EntityTable(rules) && AMP !in u
    ensures WellFormed(rules[2..6])
    ensures ApplyAll(u, rules[2..6]) == u
  {
    var mid := rules[2..6];
    forall i | 0 <= i < |mid|
      ensures mid[i].pat[0] !in u
    {
      assert mid[i] == rules[i + 2];
    }
    ApplyAllNoHeads(u, mid);
  }

  lemma TableTags(rules: seq<Rule>)
    requires EntityTable(rules)
    ensures forall i :: 0 <= i < |rules[6..]| ==> TagShaped(rules[6..][i].pat) && rules[6..][i].rep == []
  {
    forall i | 0 <= i < |rules[6..]|
      ensures TagShaped(rules[6..][i].pat) && rules[6..][i].rep == []
    {
      assert rules[6..][i] == rules[i + 6];
    }
  }

  /** A table of whole tags all deleted keeps the bracketed text or deletes
      it. */
  lemma BracketTagRewritten(a: Text, c: Text, d: Text, tags: seq<Rule>)
    requires forall i :: 0 <= i < |tags| ==> TagShaped(tags[i].pat) && tags[i].rep == []
    requires LT !in a && LT !in d && LT !in c && GT !in c
    ensures WellFormed(tags)
    ensures var r := ApplyAll(a + [LT] + c + [GT] + d, tags);
            r == a + [LT] + c + [GT] + d || r == a + d
  {
    var x := [LT] + c + [GT];
    assert TagShaped(x);
    assert a + [LT] + c + [GT] + d == a + x + d;
    TagAmidPlain(a, x, d, tags);
  }

  lemma TagAmidPlain(a: Text, x: Text, d: Text, tags: seq<Rule>)
    requires forall i :: 0 <= i < |tags| ==> TagShaped(tags[i].pat) && tags[i].rep == []
    requires LT !in a && LT !in d && TagShaped(x)
    ensures WellFormed(tags)
    ensures var r := ApplyAll(a + x + d, tags);
            r == a + x + d || r == a + d
  {
    var ps := [Plain(a), Tag(x), Plain(d)];
    ThreePiecesValid(a, x, d);
    ApplyAllPieces(ps, tags);
    JoinThree(Plain(a), Tag(x), Plain(d));
    var q := RewritePiece(Tag(x), tags);
    RewriteThree(a, x, d, tags);
    JoinThree(Plain(a), q, Plain(d));
    DeletedOrKept(x, tags);
    var r := ApplyAll(a + x + d, tags);
    assert r == a + q.text + d;
    if q != Tag(x) {
      assert q.text == [];
      DropEmpty(a, d);
    }
  }

  lemma DropEmpty(a: Text, d: Text)
    ensures a + [] + d == a + d
  {
  }

  lemma ThreePiecesValid(a: Text, x: Text, d: Text)
    requires LT !in a && LT !in d && TagShaped(x)
    ensures ValidPieces([Plain(a), Tag(x), Plain(d)])
  {
  }

  lemma RewriteThree(a: Text, x: Text, d: Text, tags: seq<Rule>)
    ensures RewritePieces([Plain(a), Tag(x), Plain(d)], tags) == [Plain(a), RewritePiece(Tag(x), tags), Plain(d)]
  {
  }

  /** Under a table whose rules all delete, a tag is kept or deleted. */
  lemma {:induction false} DeletedOrKept(t: Text, tags: seq<Rule>)
    requires forall i :: 0 <= i < |tags| ==> tags[i].rep == []
    ensures RewritePiece(Tag(t), tags) == Tag(t) || RewritePiece(Tag(t), tags) == Plain([])
    decreases |tags|
  {
    if tags != [] && tags[0].pat != t {
      DeletedOrKept(t, tags[1..]);
    }
  }
}

=== FILE: difficulty.dfy ===
/** The difficulty decorations of client/discord_client.go: the embed colour
    of `getDifficultyColor` and the glyph chosen in `formatDescription`. Both
    are exact, case-sensitive matches on three labels with a fallback. */
module Difficulty {
  import opened Bytes

  datatype Level = Easy | Medium | Hard | Unknown

  /** How both switches read a difficulty label: byte-for-byte equality. */
  function Classify(difficulty: Text): Level {
    if difficulty == "Easy" then Easy
    else if difficulty == "Medium" then Medium
    else if difficulty == "Hard" then Hard
    else Unknown
  }

  const Green: nat := 5025616    // 0x4CAF50
  const Orange: nat := 16750848  // 0xFF9900
  const Red: nat := 16007990     // 0xF44336
  const Blue: nat := 5793266     // 0x5865F2, the fallback

  /** Embed colour, a 24-bit RGB value; the fallback colour is used exactly
      for labels other than the three known ones. */
  function DifficultyColor(difficulty: Text): (c: nat)
    ensures c < 0x100_0000
    ensures c == Blue <==> Classify(difficulty) == Unknown
  {
    match Classify(difficulty)
    case Easy => Green
    case Medium => Orange
    case Hard => Red
    case Unknown => Blue
  }

  const GreenCircle: Text := "\U{F0}\U{9F}\U{9F}\U{A2}"   // U+1F7E2
  const OrangeCircle: Text := "\U{F0}\U{9F}\U{9F}\U{A0}"  // U+1F7E0
  const RedCircle: Text := "\U{F0}\U{9F}\U{94}\U{B4}"     // U+1F534
  const Abacus: Text := "\U{F0}\U{9F}\U{A7}\U{AE}"        // U+1F9EE, the fallback

  /** Glyph, one four-byte UTF-8 sequence; the fallback glyph is used exactly
      for labels other than the three known ones. */
  function DifficultyEmoji(difficulty: Text): (e: Text)
    ensures |e| == 4 && e[0] == '\U{F0}'
    ensures e == Abacus <==> Classify(difficulty) == Unknown
  {
    match Classify(difficulty)
    case Easy => GreenCircle
    case Medium => OrangeCircle
    case Hard => RedCircle
    case Unknown => Abacus
  }

  /** Only the three exact labels are recognised; any other spelling,
      including another capitalisation, falls back. */
  lemma ClassifyExact(difficulty: Text)
    ensures Classify(difficulty) != Unknown <==> difficulty in {"Easy", "Medium", "Hard"}
    ensures Classify("easy") == Unknown && Classify("HARD") == Unknown
  {
  }

  /** Colour and glyph tell the levels apart, and each picks one level. */
  lemma DecorationsDistinguishLevels(a: Text, b: Text)
    ensures DifficultyColor(a) == DifficultyColor(b) <==> Classify(a) == Classify(b)
    ensures DifficultyEmoji(a) == DifficultyEmoji(b) <==> Classify(a) == Classify(b)
  {
    assert GreenCircle[3] != OrangeCircle[3] && OrangeCircle[2] != RedCircle[2];
    assert GreenCircle[2] != RedCircle[2] && Abacus[2] != GreenCircle[2];
    assert Abacus[2] != RedCircle[2];
  }
}

=== FILE: entities.dfy ===
/** The entity table at work: each entity on its own is decoded to its
    replacement, the order of the table decides what an escaped entity turns
    into, and decoded angle brackets are then stripped as a tag. */
module Entities {
  import opened Bytes
  import opened Replace
  import opened Rendered
  import opened Stages
  import opened Formatter
  import opened Pieces
  import opened Decoding

  lemma EntityRulesShape()
    ensures EntityTable(EntityRules)
  {
    EntityRuleHeads();
    EntityTails();
    EntitySecondBytes();
    EntityReplacements();
    EntityTagRules();
  }

  lemma EntityTagRules()
    ensures forall i :: 6 <= i < 9 ==> TagShaped(EntityRules[i].pat) && EntityRules[i].rep == []
    ensures EntityRules[0].rep == "<" && EntityRules[1].rep == ">"
  {
    FontRuleShaped();
    assert TagShaped(EntityRules[7].pat) && TagShaped(EntityRules[8].pat);
  }

  lemma FontRuleShaped()
    ensures TagShaped(EntityRules[6].pat)
  {
  }

  lemma EntityTails()
    ensures forall i :: 0 <= i < 6 ==>
              |EntityRules[i].pat| >= 2 && AMP !in EntityRules[i].pat[1..] && LT !in EntityRules[i].pat
  {
  }

  lemma EntitySecondBytes()
    ensures forall i :: 0 <= i < 6 ==> |EntityRules[i].pat| >= 2
    ensures forall i, j :: 0 <= i < j < 6 ==> EntityRules[i].pat[1] != EntityRules[j].pat[1]
  {
    assert EntityRules[0].pat[1] == 'l' && EntityRules[1].pat[1] == 'g' && EntityRules[2].pat[1] == 'a';
    assert EntityRules[3].pat[1] == 'q' && EntityRules[4].pat[1] == 'n' && EntityRules[5].pat[1] == '#';
  }

  lemma EntityReplacements()
    ensures forall i :: 0 <= i < 6 && i != 2 ==> AMP !in EntityRules[i].rep
    ensures forall i :: 0 <= i < 6 ==> LT !in EntityRules[i].rep || GT !in EntityRules[i].rep
  {
    assert AMP !in Divider && LT !in Divider;
  }

  /** An entity amid text with no `&`, `<` or `>` is decoded to its
      replacement and nothing else changes, for every entity but `&amp;`. */
  lemma EntityDecoded(a: Text, k: nat, b: Text)
    requires k < 6 && k != 2
    requires AMP !in a && LT !in a && GT !in a
    requires AMP !in b && LT !in b && GT !in b
    ensures ApplyAll(a + EntityRules[k].pat + b, EntityRules) == a + EntityRules[k].rep + b
  {
    EntityRulesShape();
    DecodeOne(a, b, EntityRules, k);
  }

  /** A lone `&amp;` amid text with no `&`, `<` or `>` decodes to `&`, unless
      the next byte is `q`, `n` or `#`, with which the `&` would open one of
      the entities rewritten after `&amp;`. */
  lemma AmpDecoded(a: Text, b: Text)
    requires AMP !in a && LT !in a && GT !in a
    requires AMP !in b && LT !in b && GT !in b
    requires b == [] || (b[0] != 'q' && b[0] != 'n' && b[0] != '#')
    ensures ApplyAll(a + "&amp;" + b, EntityRules) == a + "&" + b
  {
    EntityRulesShape();
    LaterEntitySecondBytes();
    AmpAlone(a, b, EntityRules);
  }

  lemma LaterEntitySecondBytes()
    ensures EntityRules[2].pat == "&amp;"
    ensures EntityRules[3].pat[1] == 'q' && EntityRules[4].pat[1] == 'n' && EntityRules[5].pat[1] == '#'
  {
  }

  /** An escaped entity, `&amp;` followed by the rest of an entity, is
      unescaped once when its entity comes before `&amp;` in the table
      (`&lt;`, `&gt;`, `&amp;`), and decoded all the way when it comes after
      (`&quot;`, `&nbsp;`, `&#39;`): the table is one pass in a fixed order. */
  lemma EscapedEntity(a: Text, k: nat, b: Text)
    requires k < 6
    requires AMP !in a && LT !in a && GT !in a
    requires AMP !in b && LT !in b && GT !in b
    ensures ApplyAll(a + "&amp;" + EntityRules[k].pat[1..] + b, EntityRules)
         == a + (if k <= 2 then EntityRules[k].pat else EntityRules[k].rep) + b
  {
    EntityRulesShape();
    EscapedOne(a, b, EntityRules, k);
  }


  /** Bytes that are no markup and stay on one line. */
  predicate Unmarked(x: Text) {
    LT !in x && GT !in x && AMP !in x && NL !in x
  }

  /** `&lt;` and `&gt;` are decoded before the catch-all tag strip, so the
      brackets they stand for make a tag, and the strip deletes it together
      with everything between them. */
  lemma DecodedBracketsStripped(a: Text, c: Text, d: Text)
    requires Unmarked(a) && Unmarked(c) && Unmarked(d)
    requires a + d == [] || !IsBlank((a + d)[0])
    requires |a| + |d| <= MaxLength
    ensures FormatHTMLContent(a + "&lt;" + c + "&gt;" + d) == a + d
  {
    BracketPatterns();
    var s := a + EntityRules[0].pat + c + EntityRules[1].pat + d;
    TagRulesIdle(s);
    var v := BracketsDecoded(a, c, d);
    LateStagesOnBrackets(a, c, d, v);
  }

  lemma BracketPatterns()
    ensures EntityRules[0].pat == "&lt;" && EntityRules[1].pat == "&gt;"
    ensures LT !in EntityRules[0].pat && LT !in EntityRules[1].pat
  {
  }

  lemma TagRulesIdle(s: Text)
    requires LT !in s
    ensures ApplyAll(s, TagRules) == s
  {
    TagRuleHeads();
    ApplyAllNoHeads(s, TagRules);
  }

  /** The tag rewrites find no `<`; the entity table decodes the brackets, and
      its last rules may delete the tag they make. */
  lemma BracketsDecoded(a: Text, c: Text, d: Text) returns (v: Text)
    requires Unmarked(a) && Unmarked(c) && Unmarked(d)
    ensures v == ApplyAll(a + EntityRules[0].pat + c + EntityRules[1].pat + d, EntityRules)
    ensures v == a + [LT] + c + [GT] + d || v == a + d
  {
    EntityRulesShape();
    BracketEntitiesDecoded(a, c, d, EntityRules);
    DecodedBracketsLeft(a, c, d, EntityRules);
    v := ApplyAll(a + EntityRules[0].pat + c + EntityRules[1].pat + d, EntityRules);
  }

  /** From the decoded text on, the stages leave the text around the tag. */
  lemma LateStagesOnBrackets(a: Text, c: Text, d: Text, v: Text)
    requires Unmarked(a) && Unmarked(c) && Unmarked(d)
    requires a + d == [] || !IsBlank((a + d)[0])
    requires v == a + [LT] + c + [GT] + d || v == a + d
    ensures CollapseNewlines(SquashBlankLines(TrimLineStarts(CollapseNewlines(
              StripTags(ReplaceAll(v, TripleNewline, DoubleNewline)))))) == a + d
  {
    assert NL !in v;
    AbsentByte(TripleNewline, v, 0);
    if v == a + d {
      assert NoTag(v);
      StripTagsSpec(v);
    } else {
      assert v == a + ([LT] + c + [GT] + d);
      StripTagsKeepsPlain(a, [LT] + c + [GT] + d);
      StripTagsDeletesTag(c, d);
      assert NoTag(d);
      StripTagsSpec(d);
    }
    NoNewlineRunSingleLine(a + d);
    NoIndentSingleLine(a + d, true);
    LateStagesUnchanged(a + d);
  }
}

=== FILE: formatter.dfy ===
/** `formatHTMLContent` of client/discord_client.go: problem statements in
    LeetCode's HTML become Discord markdown, in a fixed order of stages. */
module Formatter {
  import opened Bytes
  import opened Replace
  import opened Rendered
  import opened Stages

  /** "• ", U+2022 and a space, as UTF-8. */
  const Bullet: Text := "\U{E2}\U{80}\U{A2} "

  /** "👉", U+1F449, as UTF-8. */
  const PointingHand: Text := "\U{F0}\U{9F}\U{91}\U{89}"

  /** What `&nbsp;` is turned into: a divider line, not a space. Its 96
      bytes are 29 dashes, 33 equals signs and 34 dashes. */
  const Divider: Text := Repeat('-', 29) + Repeat('=', 33) + Repeat('-', 34)

  /** The literal tag rewrites, in the order they are applied. */
  const TagRules: seq<Rule> := [
    Rule("<p>", ""),
    Rule("</p>", "\n"),
    Rule("<pre>", "```\n"),
    Rule("</pre>", "\n```"),
    Rule("<code>", "`"),
    Rule("</code>", "`"),
    Rule("<ul>", ""),
    Rule("</ul>", ""),
    Rule("<li>", Bullet),
    Rule("</li>", "\n"),
    Rule("<strong>", "**"),
    Rule("<strong class=\"example\">", PointingHand + "**"),
    Rule("</strong>", "**"),
    Rule("<em>", ""),
    Rule("</em>", ""),
    Rule("<sub>", ""),
    Rule("</sub>", ""),
    Rule("<span class=\"example-io\">", ""),
    Rule("</span>", ""),
    Rule("<div class=\"example-block\">", ""),
    Rule("</div>", "")
  ]

  /** The entity rewrites and the last tag rewrites, in the order they are
      applied. Each rule is a single pass over the text before it, so
      `&amp;lt;` becomes `&lt;` and stays so. */
  const EntityRules: seq<Rule> := [
    Rule("&lt;", "<"),
    Rule("&gt;", ">"),
    Rule("&amp;", "&"),
    Rule("&quot;", "\""),
    Rule("&nbsp;", Divider),
    Rule("&#39;", "'"),
    Rule("<font face=\"monospace\">", ""),
    Rule("</font>", ""),
    Rule("</div>", "")
  ]

  const TripleNewline: Text := "\n\n\n"
  const DoubleNewline: Text := "\n\n"

  /** Every stage but the length budget, in source order. */
  function Clean(s: Text): Text {
    TagRuleHeads();
    EntityRuleHeads();
    var tagged := ApplyAll(s, TagRules);
    var decoded := ApplyAll(tagged, EntityRules);
    var shortened := ReplaceAll(decoded, TripleNewline, DoubleNewline);
    var stripped := StripTags(shortened);
    var collapsed := CollapseNewlines(stripped);
    var trimmed := TrimLineStarts(collapsed);
    var squashed := SquashBlankLines(trimmed);
    CollapseNewlines(squashed)
  }

  /** The whole formatter. Empty input is answered at once. */
  function FormatHTMLContent(s: Text): (r: Text)
    ensures |r| <= MaxLength
    ensures NoTag(r)
    ensures NoNewlineRun(r)
    ensures NoIndent(r)
  {
    if s == [] then []
    else
      CleanKeepsInvariants(s);
      TruncateKeepsInvariants(Clean(s));
      Truncate(Clean(s))
  }

  /** Tag stripping leaves no tag, and the stages after it only delete bytes;
      the last collapse leaves no newline run; trimming leaves no indented
      line, and neither the squash nor the collapse after it brings one back. */
  lemma CleanKeepsInvariants(s: Text)
    ensures NoTag(Clean(s))
    ensures NoNewlineRun(Clean(s))
    ensures NoIndent(Clean(s))
  {
    TagRuleHeads();
    EntityRuleHeads();
    var tagged := ApplyAll(s, TagRules);
    var decoded := ApplyAll(tagged, EntityRules);
    var shortened := ReplaceAll(decoded, TripleNewline, DoubleNewline);
    StripOnwardsKeepsInvariants(shortened);
  }

  /** The regular-expression stages establish the invariants on any text. */
  lemma StripOnwardsKeepsInvariants(shortened: Text)
    ensures var cleaned := CollapseNewlines(SquashBlankLines(TrimLineStarts(CollapseNewlines(StripTags(shortened)))));
            NoTag(cleaned) && NoNewlineRun(cleaned) && NoIndent(cleaned)
  {
    var stripped := StripTags(shortened);
    var collapsed := CollapseNewlines(stripped);
    var trimmed := TrimLineStarts(collapsed);
    var squashed := SquashBlankLines(trimmed);
    var cleaned := CollapseNewlines(squashed);

    StripTagsSpec(shortened);
    CollapseFromDeletesNewlines(stripped, 0);
    NoTagSubsequence(collapsed, stripped);
    TrimFromSpec(collapsed, true);
    NoTagSubsequence(trimmed, collapsed);
    SquashFromUnchanged(trimmed, true);
    CollapseFromDeletesNewlines(squashed, 0);
    NoTagSubsequence(cleaned, squashed);

    CollapseFromNoRun(squashed, 0);
    assert Repeat(NL, 0) + cleaned == cleaned;

    CollapseKeepsNoIndent(squashed, 0, true);
  }

  /** Text with no `<`, no `&`, no indented line, no run of three newlines and
      within the budget passes through unchanged. */
  lemma CleanInputUnchanged(s: Text)
    requires LT !in s && AMP !in s
    requires NoIndent(s)
    requires NoNewlineRun(s)
    requires |s| <= MaxLength
    ensures FormatHTMLContent(s) == s
  {
    if s != [] {
      TagRuleHeads();
      ApplyAllNoHeads(s, TagRules);
      CleanAfterTags(s, s);
    }
  }

  /** Once the tag rewrites have left text with no `<`, no `&`, no indented
      line and no newline run, no later stage before the budget changes it. */
  lemma CleanAfterTags(s: Text, t: Text)
    requires t == ApplyAll(s, TagRules)
    requires LT !in t && AMP !in t && NoIndent(t) && NoNewlineRun(t)
    ensures Clean(s) == t
  {
    DecodeAndShortenIdle(t);
    assert NoTag(t);
    StripTagsSpec(t);
    LateStagesUnchanged(t);
  }

  /** Entity decoding and the literal newline rewrite have nothing to act on
      in text with no `<`, no `&` and no newline run. */
  lemma DecodeAndShortenIdle(t: Text)
    requires LT !in t && AMP !in t && NoNewlineRun(t)
    ensures ReplaceAll(ApplyAll(t, EntityRules), TripleNewline, DoubleNewline) == t
  {
    EntityRuleHeads();
    ApplyAllNoHeads(t, EntityRules);
    NoNewlineRunNoTriple(t);
  }

  /** The stages after tag stripping leave text alone that has no newline
      run and no indented line. */
  lemma LateStagesUnchanged(s: Text)
    requires NoNewlineRun(s)
    requires NoIndent(s)
    ensures CollapseNewlines(SquashBlankLines(TrimLineStarts(CollapseNewlines(s)))) == s
  {
    assert Repeat(NL, 0) + s == s;
    CollapseFromUnchanged(s, 0);
    TrimFromSpec(s, true);
    SquashFromUnchanged(s, true);
  }

  lemma TagRuleHeads()
    ensures WellFormed(TagRules)
    ensures forall i :: 0 <= i < |TagRules| ==> TagRules[i].pat[0] == LT
  {
  }

  lemma EntityRuleHeads()
    ensures WellFormed(EntityRules)
    ensures forall i :: 0 <= i < |EntityRules| ==> EntityRules[i].pat[0] == AMP || EntityRules[i].pat[0] == LT
  {
  }

  lemma NoNewlineRunNoTriple(s: Text)
    requires NoNewlineRun(s)
    ensures !Occurs(TripleNewline, s)
  {
    forall i
      ensures !OccursAt(TripleNewline, s, i)
    {
      if 0 <= i && i + 3 <= |s| {
        var w := s[i..i + 3];
        assert w[0] == s[i] && w[1] == s[i + 1] && w[2] == s[i + 2];
      }
    }
  }

  /** Formatting text without `<` or `&` twice is formatting it once: the
      first pass adds no `<` or `&` and leaves text that is clean and within
      the budget, which the second pass returns as it is. */
  lemma MarkupFreeIdempotent(s: Text)
    requires LT !in s && AMP !in s
    ensures FormatHTMLContent(FormatHTMLContent(s)) == FormatHTMLContent(s)
  {
    if s != [] {
      MarkupFreeClean(s);
    }
    CleanInputUnchanged(FormatHTMLContent(s));
  }

  /** The stages bring no `<` or `&` into text without them. */
  lemma MarkupFreeClean(s: Text)
    requires LT !in s && AMP !in s
    ensures LT !in Clean(s) && AMP !in Clean(s)
  {
    TagRuleHeads();
    EntityRuleHeads();
    ApplyAllNoHeads(s, TagRules);
    ApplyAllNoHeads(s, EntityRules);
    var shortened := ReplaceAll(s, TripleNewline, DoubleNewline);
    assert LT !in shortened && AMP !in shortened;
    StripOnwardsKeepsAbsent(shortened, LT);
    StripOnwardsKeepsAbsent(shortened, AMP);
  }

  /** The regular-expression stages only delete bytes. */
  lemma StripOnwardsKeepsAbsent(t: Text, x: Byte)
    requires x !in t
    ensures x !in CollapseNewlines(SquashBlankLines(TrimLineStarts(CollapseNewlines(StripTags(t)))))
  {
    var stripped := StripTags(t);
    var collapsed := CollapseNewlines(stripped);
    var trimmed := TrimLineStarts(collapsed);
    var squashed := SquashBlankLines(trimmed);
    StripTagsSpec(t);
    SubsequenceAbsent(stripped, t, x);
    CollapseFromDeletesNewlines(stripped, 0);
    SubsequenceAbsent(collapsed, stripped, x);
    TrimFromSpec(collapsed, true);
    SubsequenceAbsent(trimmed, collapsed, x);
    SquashFromDeletesBlanks(trimmed, true);
    SubsequenceAbsent(squashed, trimmed, x);
    CollapseFromDeletesNewlines(squashed, 0);
    SubsequenceAbsent(CollapseNewlines(squashed), squashed, x);
  }

  /** The blank-line squash never has work to do: after the trim, every line
      holding only spaces and tabs is already empty. */
  lemma SquashAfterTrimIsIdle(s: Text)
    ensures SquashBlankLines(TrimLineStarts(s)) == TrimLineStarts(s)
  {
    TrimFromSpec(s, true);
    SquashFromUnchanged(TrimLineStarts(s), true);
  }

  /** Over-long text is cut to exactly the budget and ends in the marker;
      shorter text is returned whole. */
  lemma BudgetEnforced(s: Text)
    ensures |Clean(s)| <= MaxLength ==> FormatHTMLContent(s) == Clean(s)
    ensures |Clean(s)| > MaxLength ==>
              |FormatHTMLContent(s)| == MaxLength &&
              FormatHTMLContent(s) == Clean(s)[..MaxLength - 3] + "..."
  {
    if s == [] {
      CleanEmpty();
    }
  }

  /** Every stage maps empty text to empty text, so the empty-input shortcut
      agrees with the stages. */
  lemma CleanEmpty()
    ensures Clean([]) == []
  {
    TagRuleHeads();
    EntityRuleHeads();
    ApplyAllNoHeads([], TagRules);
    ApplyAllNoHeads([], EntityRules);
    AbsentByte(TripleNewline, [], 0);
  }
}

=== FILE: newline_runs.dfy ===
/** Runs of blank lines through the whole formatter: the literal
    `"\n\n\n"` rewrite only shortens a run, and the regular-expression collapse
    after it leaves exactly one blank line. */
module NewlineRuns {
  import opened Bytes
  import opened Replace
  import opened Rendered
  import opened Stages
  import opened Formatter

  /** The literal rewrite replaces each whole group of three newlines by two,
      left to right, so a run of `k` becomes a run of `2 * (k / 3) + k % 3`:
      shorter when `k` is at least three, never shorter than two. */
  lemma {:induction false} ShortenRun(k: nat, b: Text) returns (j: nat)
    requires NL !in b
    ensures ReplaceAll(Repeat(NL, k) + b, TripleNewline, DoubleNewline) == Repeat(NL, j) + b
    ensures j == 2 * (k / 3) + k % 3
    decreases k
  {
    if k < 3 {
      NoTripleInShortRun(k, b);
      j := k;
    } else {
      var j' := ShortenRun(k - 3, b);
      RunSplit(k, b);
      ReplaceAllAtFront(Repeat(NL, k - 3) + b, TripleNewline, DoubleNewline);
      RunGrow(j', b);
      j := j' + 2;
    }
  }

  lemma RunSplit(k: nat, b: Text)
    requires k >= 3
    ensures Repeat(NL, k) + b == TripleNewline + (Repeat(NL, k - 3) + b)
  {
  }

  lemma RunGrow(j: nat, b: Text)
    ensures DoubleNewline + (Repeat(NL, j) + b) == Repeat(NL, j + 2) + b
  {
    assert DoubleNewline + Repeat(NL, j) == Repeat(NL, j + 2);
  }

  /** Fewer than three newlines before a line hold no `"\n\n\n"`. */
  lemma NoTripleInShortRun(k: nat, b: Text)
    requires k < 3 && NL !in b
    ensures !Occurs(TripleNewline, Repeat(NL, k) + b)
  {
    var s := Repeat(NL, k) + b;
    forall i
      ensures !OccursAt(TripleNewline, s, i)
    {
      if 0 <= i && i + 3 <= |s| {
        assert s[i..i + 3][2] == s[i + 2] == b[i + 2 - k];
      }
    }
  }

  /** Two unindented lines around one blank line are clean text. */
  lemma BlankLineBetween(a: Text, b: Text)
    requires NL !in a && (a == [] || !IsBlank(a[0]))
    requires NL !in b && (b == [] || !IsBlank(b[0]))
    ensures NoIndent(a + Repeat(NL, 2) + b)
    ensures NoNewlineRun(a + Repeat(NL, 2) + b)
  {
    var nn := Repeat(NL, 2);
    var u := a + nn + b;
    NoIndentSingleLine(a, true);
    NoIndentSingleLine(b, true);
    var x := if a == [] then true else a[|a| - 1] == NL;
    assert NoIndentAt(nn, x);
    NoIndentConcat(nn, b, x);
    NoIndentConcat(a, nn + b, true);
    assert u == a + (nn + b);
    forall i | 0 <= i && i + 2 < |u|
      ensures !(u[i] == NL && u[i + 1] == NL && u[i + 2] == NL)
    {
      if i < |a| {
        assert u[i] == a[i];
      } else {
        assert u[i + 2] == b[i - |a|];
      }
    }
  }

  /** A run of three or more newlines between two lines leaves exactly one
      blank line: the literal rewrite shortens the run, the tag strip finds
      nothing, the collapse cuts the run to two newlines, and the later stages
      and the budget keep the result. */
  lemma NewlineRunCollapsed(a: Text, k: nat, b: Text)
    requires k >= 3
    requires NL !in a && LT !in a && AMP !in a && (a == [] || !IsBlank(a[0]))
    requires NL !in b && LT !in b && AMP !in b && (b == [] || !IsBlank(b[0]))
    requires |a| + 2 + |b| <= MaxLength
    ensures FormatHTMLContent(a + Repeat(NL, k) + b) == a + Repeat(NL, 2) + b
  {
    var s := a + Repeat(NL, k) + b;
    assert s[|a|] == NL;
    var shortened, j := Shortened(a, k, b);
    StrippedAndCollapsed(a, j, b);
    BlankLineBetween(a, b);
    CleanLinesKept(a + Repeat(NL, 2) + b);
  }

  /** The tag strip finds no `<`, and the collapse leaves two newlines. */
  lemma StrippedAndCollapsed(a: Text, j: nat, b: Text)
    requires j >= 2
    requires NL !in a && LT !in a && NL !in b && LT !in b
    ensures CollapseNewlines(StripTags(a + Repeat(NL, j) + b)) == a + Repeat(NL, 2) + b
  {
    var t := a + Repeat(NL, j) + b;
    assert LT !in t;
    assert NoTag(t);
    StripTagsSpec(t);
    CollapsedToTwo(a, j, b);
  }

  /** Clean text passes the trim, the squash and the last collapse. */
  lemma CleanLinesKept(u: Text)
    requires NoNewlineRun(u) && NoIndent(u)
    ensures CollapseNewlines(SquashBlankLines(TrimLineStarts(u))) == u
  {
    LateStagesUnchanged(u);
    assert Repeat(NL, 0) + u == u;
    CollapseFromUnchanged(u, 0);
  }

  /** The tag and entity rewrites find nothing, and the literal rewrite leaves
      a run of at least two newlines. */
  lemma Shortened(a: Text, k: nat, b: Text) returns (t: Text, j: nat)
    requires k >= 3
    requires NL !in a && LT !in a && AMP !in a
    requires NL !in b && LT !in b && AMP !in b
    ensures t == ReplaceAll(ApplyAll(ApplyAll(a + Repeat(NL, k) + b, TagRules), EntityRules),
                              TripleNewline, DoubleNewline)
    ensures t == a + Repeat(NL, j) + b && j >= 2
    ensures LT !in t
  {
    var s := a + Repeat(NL, k) + b;
    RewritesIdle(s);
    j := ShortenAfterLine(a, k, b);
    t := a + Repeat(NL, j) + b;
  }

  /** Text without `<` or `&` passes both rewrite tables unchanged. */
  lemma RewritesIdle(s: Text)
    requires LT !in s && AMP !in s
    ensures ApplyAll(ApplyAll(s, TagRules), EntityRules) == s
  {
    TagRuleHeads();
    EntityRuleHeads();
    ApplyAllNoHeads(s, TagRules);
    ApplyAllNoHeads(s, EntityRules);
  }

  lemma ShortenAfterLine(a: Text, k: nat, b: Text) returns (j: nat)
    requires k >= 3 && NL !in a && NL !in b
    ensures ReplaceAll(a + Repeat(NL, k) + b, TripleNewline, DoubleNewline) == a + Repeat(NL, j) + b
    ensures j >= 2
  {
    j := ShortenRun(k, b);
    Regroup(a, Repeat(NL, k), b);
    ReplaceAllSkips(a, Repeat(NL, k) + b, TripleNewline, DoubleNewline);
    Regroup(a, Repeat(NL, j), b);
  }

  /** The collapse keeps both lines and two newlines of the run between them. */
  lemma CollapsedToTwo(a: Text, j: nat, b: Text)
    requires j >= 2
    requires NL !in a && NL !in b
    ensures CollapseNewlines(a + Repeat(NL, j) + b) == a + Repeat(NL, 2) + b
  {
    assert a + Repeat(NL, j) + b == a + (Repeat(NL, j) + b);
    CollapseKeepsLine(a, Repeat(NL, j) + b);
    CollapseRun(j, b, 0);
    CollapseKeepsLine(b, []);
    assert b + [] == b;
    assert a + (Repeat(NL, 2) + b) == a + Repeat(NL, 2) + b;
  }

  /** Five newlines between two lines of text become one blank line. */
  lemma FiveNewlines()
    ensures FormatHTMLContent("line1\n\n\n\n\nline2") == "line1\n\nline2"
  {
    LinesPlain();
    FiveNewlinesSpelled();
    NewlineRunCollapsed("line1", 5, "line2");
  }

  lemma LinesPlain()
    ensures NL !in "line1" && LT !in "line1" && AMP !in "line1" && !IsBlank('l')
    ensures NL !in "line2" && LT !in "line2" && AMP !in "line2"
  {
  }

  lemma FiveNewlinesSpelled()
    ensures "line1" + Repeat(NL, 5) + "line2" == "line1\n\n\n\n\nline2"
    ensures "line1" + Repeat(NL, 2) + "line2" == "line1\n\nline2"
  {
  }
}

=== FILE: pieces.dfy ===
/** A reference reading of the literal tag rewrites. Text that consists of
    plain stretches and whole tags is rewritten tag by tag: each tag that has
    a rule becomes that rule's replacement, and nothing else changes. The
    string-level rewrites agree with this reading on every such text. */
module Pieces {
  import opened Bytes
  import opened Replace

  /** A stretch of text: plain bytes, or one whole tag. */
  datatype Piece = Plain(text: Text) | Tag(text: Text)

  /** `<`, then bytes that are neither `<` nor `>`, then `>`. */
  predicate TagShaped(t: Text) {
    |t| >= 2 && t[0] == LT && t[|t| - 1] == GT &&
    forall i :: 0 < i < |t| - 1 ==> t[i] != LT && t[i] != GT
  }

  /** Plain stretches hold no `<`; tags are whole. */
  predicate ValidPiece(p: Piece) {
    match p
    case Plain(x) => LT !in x
    case Tag(t) => TagShaped(t)
  }

  predicate ValidPieces(ps: seq<Piece>) {
    forall i :: 0 <= i < |ps| ==> ValidPiece(ps[i])
  }

  /** Every pattern is a whole tag and no replacement holds a `<`. */
  predicate TagTable(rules: seq<Rule>) {
    forall i :: 0 <= i < |rules| ==> TagShaped(rules[i].pat) && LT !in rules[i].rep
  }

  function Join(ps: seq<Piece>): Text {
    if ps == [] then [] else ps[0].text + Join(ps[1..])
  }

  /** The first rule written for exactly this tag replaces it; a tag without
      a rule, and any plain stretch, stays as it is. */
  function RewritePiece(p: Piece, rules: seq<Rule>): Piece
    decreases |rules|
  {
    match p
    case Plain(_) => p
    case Tag(t) =>
      if rules == [] then p
      else if rules[0].pat == t then Plain(rules[0].rep)
      else RewritePiece(p, rules[1..])
  }

  function RewritePieces(ps: seq<Piece>, rules: seq<Rule>): (qs: seq<Piece>)
    ensures |qs| == |ps|
    ensures forall i :: 0 <= i < |ps| ==> qs[i] == RewritePiece(ps[i], rules)
  {
    if ps == [] then [] else [RewritePiece(ps[0], rules)] + RewritePieces(ps[1..], rules)
  }

  /** Rewriting keeps pieces valid under a table whose replacements hold no `<`. */
  lemma {:induction false} RewritePiecesValid(ps: seq<Piece>, rules: seq<Rule>)
    requires ValidPieces(ps) && TagTable(rules)
    ensures ValidPieces(RewritePieces(ps, rules))
    decreases |ps|
  {
    if ps != [] {
      RewritePieceValid(ps[0], rules);
      RewritePiecesValid(ps[1..], rules);
      var qs := RewritePieces(ps, rules);
      assert qs[0] == RewritePiece(ps[0], rules) && qs[1..] == RewritePieces(ps[1..], rules);
      forall i | 0 <= i < |qs|
        ensures ValidPiece(qs[i])
      {
        if i > 0 {
          assert qs[i] == qs[1..][i - 1];
        }
      }
    }
  }

  lemma {:induction false} RewritePieceValid(p: Piece, rules: seq<Rule>)
    requires ValidPiece(p) && TagTable(rules)
    ensures ValidPiece(RewritePiece(p, rules))
    decreases |rules|
  {
    if p.Tag? && rules != [] && rules[0].pat != p.text {
      RewritePieceValid(p, rules[1..]);
    }
  }

  /** Two different whole tags differ inside both their lengths: where the
      shorter one has its `>`, the longer one has an inner byte. */
  lemma TagsDiffer(t: Text, pat: Text) returns (k: nat)
    requires TagShaped(t) && TagShaped(pat) && t != pat
    ensures k < |t| && k < |pat| && t[k] != pat[k]
  {
    if |t| < |pat| {
      k := |t| - 1;
    } else if |t| > |pat| {
      k := |pat| - 1;
    } else {
      assert exists i :: 0 <= i < |t| && t[i] != pat[i];
      var j :| 0 <= j < |t| && t[j] != pat[j];
      k := j;
    }
  }

  /** The scan passes over a whole tag that is not the pattern. */
  lemma ReplaceAllPassesTag(t: Text, rest: Text, pat: Text, rep: Text)
    requires TagShaped(t) && TagShaped(pat) && t != pat
    ensures ReplaceAll(t + rest, pat, rep) == t + ReplaceAll(rest, pat, rep)
  {
    var k := TagsDiffer(t, pat);
    var s := t + rest;
    var tail := t[1..];
    assert s[0] == t[0] && s[k] == t[k];
    assert s[1..] == tail + rest;
    ReplaceAllMismatch(s, pat, rep, k);
    TagTail(t);
    ReplaceAllSkips(tail, rest, pat, rep);
    var r := ReplaceAll(rest, pat, rep);
    assert [t[0]] + (tail + r) == ([t[0]] + tail) + r;
    assert [t[0]] + tail == t;
  }

  /** Past its opening `<`, a whole tag holds no `<`. */
  lemma TagTail(t: Text)
    requires TagShaped(t)
    ensures LT !in t[1..]
  {
    forall i | 0 <= i < |t[1..]|
      ensures t[1..][i] != LT
    {
      assert t[1..][i] == t[i + 1];
    }
  }

  /** One whole-tag rewrite, read on the pieces. */
  lemma {:induction false} ReplaceAllPieces(ps: seq<Piece>, r: Rule)
    requires ValidPieces(ps) && TagShaped(r.pat) && LT !in r.rep
    ensures ReplaceAll(Join(ps), r.pat, r.rep) == Join(RewritePieces(ps, [r]))
    decreases |ps|
  {
    if ps == [] {
      assert ReplaceAll([], r.pat, r.rep) == [];
    } else {
      var rest := Join(ps[1..]);
      assert ValidPiece(ps[0]);
      assert ValidPieces(ps[1..]) by {
        forall i | 0 <= i < |ps[1..]|
          ensures ValidPiece(ps[1..][i])
        {
          assert ps[1..][i] == ps[i + 1];
        }
      }
      ReplaceAllPieces(ps[1..], r);
      match ps[0]
      case Plain(x) =>
        ReplaceAllSkips(x, rest, r.pat, r.rep);
      case Tag(t) =>
        if t == r.pat {
          ReplaceAllAtFront(rest, r.pat, r.rep);
        } else {
          ReplaceAllPassesTag(t, rest, r.pat, r.rep);
          assert RewritePiece(ps[0], [r]) == RewritePiece(ps[0], []);
        }
    }
  }

  /** Rewriting by the first rule and then by the others is rewriting by all. */
  lemma {:induction false} RewritePiecesStep(ps: seq<Piece>, rules: seq<Rule>)
    requires rules != []
    ensures RewritePieces(RewritePieces(ps, rules[..1]), rules[1..]) == RewritePieces(ps, rules)
    decreases |ps|
  {
    if ps != [] {
      RewritePiecesStep(ps[1..], rules);
      var p := ps[0];
      var head := RewritePieces(ps, rules[..1]);
      assert head[0] == RewritePiece(p, rules[..1]) && head[1..] == RewritePieces(ps[1..], rules[..1]);
      if p.Tag? && rules[0].pat != p.text {
        assert RewritePiece(p, rules[..1]) == RewritePiece(p, rules[..1][1..]) == p;
      }
    }
  }

  /** The whole table, read on the pieces: applying the rewrites in order to
      the joined text gives the joined rewritten pieces. */
  lemma {:induction false} ApplyAllPieces(ps: seq<Piece>, rules: seq<Rule>)
    requires ValidPieces(ps) && TagTable(rules)
    ensures WellFormed(rules)
    ensures ApplyAll(Join(ps), rules) == Join(RewritePieces(ps, rules))
    decreases |rules|
  {
    if rules == [] {
      RewritePiecesNone(ps);
    } else {
      var first := rules[..1];
      assert first == [rules[0]];
      assert TagShaped(rules[0].pat) && LT !in rules[0].rep;
      ReplaceAllPieces(ps, rules[0]);
      var qs := RewritePieces(ps, first);
      RewritePiecesValid(ps, first);
      assert TagTable(rules[1..]) by {
        forall i | 0 <= i < |rules[1..]|
          ensures TagShaped(rules[1..][i].pat) && LT !in rules[1..][i].rep
        {
          assert rules[1..][i] == rules[i + 1];
        }
      }
      ApplyAllPieces(qs, rules[1..]);
      RewritePiecesStep(ps, rules);
    }
  }

  lemma {:induction false} RewritePiecesNone(ps: seq<Piece>)
    ensures RewritePieces(ps, []) == ps
    decreases |ps|
  {
    if ps != [] {
      RewritePiecesNone(ps[1..]);
      assert ps == [ps[0]] + ps[1..];
    }
  }

  /** The first rule written for a tag is the one that rewrites it. */
  lemma {:induction false} FirstRuleWins(t: Text, rules: seq<Rule>, k: nat)
    requires k < |rules| && rules[k].pat == t
    requires forall j :: 0 <= j < k ==> rules[j].pat != t
    ensures RewritePiece(Tag(t), rules) == Plain(rules[k].rep)
    decreases k
  {
    if k > 0 {
      FirstRuleWins(t, rules[1..], k - 1);
    }
  }

  lemma JoinThree(p: Piece, q: Piece, r: Piece)
    ensures Join([p, q, r]) == p.text + q.text + r.text
  {
    assert [p, q, r][1..] == [q, r];
    assert [q, r][1..] == [r];
    assert [r][1..] == [];
    assert Join([r]) == r.text;
    assert Join([q, r]) == q.text + r.text;
  }

  /** A tag that a table of whole tags rewrites is itself a whole tag: it is
      one of the table's patterns. */
  lemma {:induction false} RewrittenTagShaped(t: Text, rules: seq<Rule>)
    requires TagTable(rules) && RewritePiece(Tag(t), rules).Plain?
    ensures TagShaped(t)
    decreases |rules|
  {
    if rules[0].pat != t {
      assert TagTable(rules[1..]) by {
        forall i | 0 <= i < |rules[1..]|
          ensures TagShaped(rules[1..][i].pat) && LT !in rules[1..][i].rep
        {
          assert rules[1..][i] == rules[i + 1];
        }
      }
      RewrittenTagShaped(t, rules[1..]);
    }
  }
}

=== FILE: rendered.dfy ===
/** The invariants the formatter's output is meant to keep: no markup tag, no
    run of three newlines, no line that starts with a space or a tab. Each is
    stated once over all positions, and again in the one-byte-at-a-time form
    that the streaming stages are proved against. */
module Rendered {
  import opened Bytes

  /** No `<` is followed anywhere later by `>`, so nothing the pattern
      `<[^>]*>` matches is left. */
  predicate NoTag(s: Text) {
    forall i, j :: 0 <= i < j < |s| && s[i] == LT ==> s[j] != GT
  }

  /** No three consecutive newline bytes. */
  predicate NoNewlineRun(s: Text) {
    forall i :: 0 <= i && i + 2 < |s| ==> !(s[i] == NL && s[i + 1] == NL && s[i + 2] == NL)
  }

  /** Byte `i` of `s` begins a line; `atStart` says whether the text before
      `s` ended a line (or there is no text before it). */
  predicate LineStart(s: Text, i: int, atStart: bool)
    requires 0 <= i <= |s|
  {
    if i == 0 then atStart else s[i - 1] == NL
  }

  /** No line of `s` begins with a space or a tab. */
  predicate NoIndentAt(s: Text, atStart: bool) {
    forall i :: 0 <= i < |s| && LineStart(s, i, atStart) ==> !IsBlank(s[i])
  }

  predicate NoIndent(s: Text) {
    NoIndentAt(s, true)
  }

  lemma NoTagUnfold(s: Text)
    requires s != []
    ensures NoTag(s) <==> (s[0] == LT ==> GT !in s[1..]) && NoTag(s[1..])
  {
    if NoTag(s) {
      forall i, j | 0 <= i < j < |s[1..]| && s[1..][i] == LT
        ensures s[1..][j] != GT
      {
        assert s[i + 1] == LT && s[j + 1] == s[1..][j];
      }
    }
    if (s[0] == LT ==> GT !in s[1..]) && NoTag(s[1..]) {
      forall i, j | 0 <= i < j < |s| && s[i] == LT
        ensures s[j] != GT
      {
        assert s[j] == s[1..][j - 1];
        if i > 0 {
          assert s[1..][i - 1] == LT;
        }
      }
    }
  }

  /** Deleting bytes cannot create a tag. */
  lemma {:induction false} NoTagSubsequence(a: Text, b: Text)
    requires IsSubsequence(a, b)
    requires NoTag(b)
    ensures NoTag(a)
    decreases |a| + |b|
  {
    if a != [] {
      NoTagUnfold(b);
      NoTagUnfold(a);
      if a[0] == b[0] && IsSubsequence(a[1..], b[1..]) {
        NoTagSubsequence(a[1..], b[1..]);
        if GT in a[1..] {
          SubsequenceMembers(a[1..], b[1..], GT);
        }
      } else {
        NoTagSubsequence(a, b[1..]);
      }
    }
  }

  lemma NoIndentUnfold(s: Text, atStart: bool)
    requires s != []
    ensures NoIndentAt(s, atStart) <==>
              (atStart ==> !IsBlank(s[0])) && NoIndentAt(s[1..], s[0] == NL)
  {
    if NoIndentAt(s, atStart) {
      forall i | 0 <= i < |s[1..]| && LineStart(s[1..], i, s[0] == NL)
        ensures !IsBlank(s[1..][i])
      {
        assert LineStart(s, i + 1, atStart);
      }
    }
    if (atStart ==> !IsBlank(s[0])) && NoIndentAt(s[1..], s[0] == NL) {
      forall i | 0 <= i < |s| && LineStart(s, i, atStart)
        ensures !IsBlank(s[i])
      {
        if i > 0 {
          assert LineStart(s[1..], i - 1, s[0] == NL);
          assert s[i] == s[1..][i - 1];
        }
      }
    }
  }

  /** A non-newline byte between two texts without a newline run cannot be
      part of one. */
  lemma NoNewlineRunJoin(a: Text, c: Byte, b: Text)
    requires NoNewlineRun(a) && NoNewlineRun(b)
    requires c != NL
    ensures NoNewlineRun(a + [c] + b)
  {
    var s := a + [c] + b;
    forall i | 0 <= i && i + 2 < |s|
      ensures !(s[i] == NL && s[i + 1] == NL && s[i + 2] == NL)
    {
      if i + 2 < |a| {
        assert s[i] == a[i] && s[i + 1] == a[i + 1] && s[i + 2] == a[i + 2];
      } else if i > |a| {
        var k := i - |a| - 1;
        assert s[i] == b[k] && s[i + 1] == b[k + 1] && s[i + 2] == b[k + 2];
      } else {
        assert s[|a|] == c;
      }
    }
  }

  lemma NoNewlineRunSuffix(a: Text, b: Text)
    requires NoNewlineRun(a + b)
    ensures NoNewlineRun(b)
  {
    var s := a + b;
    forall i | 0 <= i && i + 2 < |b|
      ensures !(b[i] == NL && b[i + 1] == NL && b[i + 2] == NL)
    {
      assert s[|a| + i] == b[i] && s[|a| + i + 1] == b[i + 1] && s[|a| + i + 2] == b[i + 2];
    }
  }

  /** A nonempty line made only of spaces and tabs starts with one of them,
      so text without indented lines has no such line: every nonempty stretch
      from a line start holds a byte other than space and tab. */
  lemma NoIndentNoBlankLine(s: Text, i: int, j: int)
    requires NoIndent(s)
    requires 0 <= i < j <= |s| && LineStart(s, i, true)
    ensures exists k :: i <= k < j && !IsBlank(s[k])
  {
    assert !IsBlank(s[i]);
  }

  /** Unindented pieces join into unindented text, each piece read from where
      the one before it leaves off. */
  lemma NoIndentConcat(a: Text, b: Text, atStart: bool)
    requires NoIndentAt(a, atStart)
    requires NoIndentAt(b, if a == [] then atStart else a[|a| - 1] == NL)
    ensures NoIndentAt(a + b, atStart)
  {
    var s := a + b;
    var bStart := if a == [] then atStart else a[|a| - 1] == NL;
    forall i | 0 <= i < |s| && LineStart(s, i, atStart)
      ensures !IsBlank(s[i])
    {
      if i < |a| {
        assert s[i] == a[i] && LineStart(a, i, atStart);
      } else {
        assert s[i] == b[i - |a|] && LineStart(b, i - |a|, bStart);
      }
    }
  }

  /** Text without newlines has no line start but its first byte. */
  lemma NoIndentSingleLine(s: Text, atStart: bool)
    requires NL !in s
    requires atStart && s != [] ==> !IsBlank(s[0])
    ensures NoIndentAt(s, atStart)
  {
  }

  /** Text with at most its last byte a newline has no newline run. */
  lemma NoNewlineRunSingleLine(s: Text)
    requires NL !in s
    ensures NoNewlineRun(s) && NoNewlineRun(s + [NL])
  {
    var t := s + [NL];
    forall i | 0 <= i && i + 2 < |t|
      ensures t[i] != NL
    {
      assert t[i] == s[i];
    }
  }
}

=== FILE: replace.dfy ===
/** Go's `strings.ReplaceAll` with a nonempty pattern, and a table of such
    rewrites applied one after the other. */
module Replace {
  import opened Bytes

  /** `pat` occurs in `s` starting at byte `i`. */
  ghost predicate OccursAt(pat: Text, s: Text, i: int) {
    0 <= i && i + |pat| <= |s| && s[i..i + |pat|] == pat
  }

  /** `pat` occurs somewhere in `s`. */
  ghost predicate Occurs(pat: Text, s: Text) {
    exists i :: OccursAt(pat, s, i)
  }

  /** Scans `s` left to right; every occurrence of `pat` found is replaced by
      `rep` and scanning resumes after it, so occurrences do not overlap and
      text produced by `rep` is never scanned again. */
  function ReplaceAll(s: Text, pat: Text, rep: Text): (r: Text)
    requires |pat| > 0
    ensures !Occurs(pat, s) ==> r == s
    ensures forall b :: b in r ==> b in s || b in rep
    decreases |s|
  {
    if |s| < |pat| then s
    else if s[..|pat|] == pat then
      assert OccursAt(pat, s, 0);
      rep + ReplaceAll(s[|pat|..], pat, rep)
    else
      OccursInSuffix(pat, s, 1);
      [s[0]] + ReplaceAll(s[1..], pat, rep)
  }

  /** An occurrence in a suffix of `s` is an occurrence in `s`. */
  lemma OccursInSuffix(pat: Text, s: Text, k: nat)
    requires k <= |s|
    ensures Occurs(pat, s[k..]) ==> Occurs(pat, s)
  {
    if Occurs(pat, s[k..]) {
      var i :| OccursAt(pat, s[k..], i);
      assert s[k + i..k + i + |pat|] == s[k..][i..i + |pat|];
      assert OccursAt(pat, s, k + i);
    }
  }

  /** A pattern holding a byte that `s` lacks cannot occur in `s`. */
  lemma AbsentByte(pat: Text, s: Text, k: nat)
    requires k < |pat|
    requires pat[k] !in s
    ensures !Occurs(pat, s)
  {
    forall i
      ensures !OccursAt(pat, s, i)
    {
      if 0 <= i && i + |pat| <= |s| {
        assert s[i..i + |pat|][k] == s[i + k];
      }
    }
  }

  /** Bytes before the first possible start of `pat` pass through untouched. */
  lemma {:induction false} ReplaceAllSkips(a: Text, b: Text, pat: Text, rep: Text)
    requires |pat| > 0
    requires pat[0] !in a
    ensures ReplaceAll(a + b, pat, rep) == a + ReplaceAll(b, pat, rep)
    decreases |a|
  {
    if a != [] {
      var s := a + b;
      if |s| < |pat| {
        assert ReplaceAll(b, pat, rep) == b;
      } else {
        assert s[0] == a[0] != pat[0];
        assert s[..|pat|] != pat;
        assert s[1..] == a[1..] + b;
        ReplaceAllSkips(a[1..], b, pat, rep);
        assert ReplaceAll(s, pat, rep) == [a[0]] + (a[1..] + ReplaceAll(b, pat, rep));
        assert a == [a[0]] + a[1..];
      }
    } else {
      assert a + b == b;
    }
  }

  /** An occurrence at the front is replaced and scanning resumes after it. */
  lemma ReplaceAllAtFront(b: Text, pat: Text, rep: Text)
    requires |pat| > 0
    ensures ReplaceAll(pat + b, pat, rep) == rep + ReplaceAll(b, pat, rep)
  {
    var s := pat + b;
    assert s[..|pat|] == pat;
    assert s[|pat|..] == b;
  }

  /** Where the text and the pattern differ within the pattern's length, the
      first byte is passed over and scanning goes on from the next. */
  lemma ReplaceAllMismatch(s: Text, pat: Text, rep: Text, k: nat)
    requires |pat| > 0
    requires k < |s| && k < |pat| && s[k] != pat[k]
    ensures ReplaceAll(s, pat, rep) == [s[0]] + ReplaceAll(s[1..], pat, rep)
  {
    if |s| >= |pat| {
      assert s[..|pat|][k] != pat[k];
    } else {
      assert ReplaceAll(s[1..], pat, rep) == s[1..];
      assert s == [s[0]] + s[1..];
    }
  }

  /** Replacing a pattern by itself changes nothing. */
  lemma {:induction false} ReplaceAllBySelf(s: Text, pat: Text)
    requires |pat| > 0
    ensures ReplaceAll(s, pat, pat) == s
    decreases |s|
  {
    if |s| >= |pat| {
      if s[..|pat|] == pat {
        ReplaceAllBySelf(s[|pat|..], pat);
        assert s == s[..|pat|] + s[|pat|..];
      } else {
        ReplaceAllBySelf(s[1..], pat);
        assert s == [s[0]] + s[1..];
      }
    }
  }

  /** One literal rewrite `strings.ReplaceAll(content, pat, rep)`. */
  datatype Rule = Rule(pat: Text, rep: Text)

  predicate WellFormed(rules: seq<Rule>) {
    forall i :: 0 <= i < |rules| ==> |rules[i].pat| > 0
  }

  /** The rules applied in order, each to the result of the one before. */
  function ApplyAll(s: Text, rules: seq<Rule>): (r: Text)
    requires WellFormed(rules)
    ensures (forall i :: 0 <= i < |rules| ==> !Occurs(rules[i].pat, s)) ==> r == s
    ensures forall b :: b in r ==> b in s || exists i :: 0 <= i < |rules| && b in rules[i].rep
    decreases |rules|
  {
    if rules == [] then s
    else
      var t := ReplaceAll(s, rules[0].pat, rules[0].rep);
      var r := ApplyAll(t, rules[1..]);
      assert forall b :: b in r ==> b in t || exists i :: 1 <= i < |rules| && b in rules[i].rep by {
        forall b | b in r && b !in t
          ensures exists i :: 1 <= i < |rules| && b in rules[i].rep
        {
          var j :| 0 <= j < |rules[1..]| && b in rules[1..][j].rep;
          assert rules[1..][j] == rules[j + 1];
        }
      }
      r
  }

  /** No rule applies to text lacking the first byte of every pattern. */
  lemma ApplyAllNoHeads(s: Text, rules: seq<Rule>)
    requires WellFormed(rules)
    requires forall i :: 0 <= i < |rules| ==> rules[i].pat[0] !in s
    ensures ApplyAll(s, rules) == s
  {
    forall i | 0 <= i < |rules|
      ensures !Occurs(rules[i].pat, s)
    {
      AbsentByte(rules[i].pat, s, 0);
    }
  }

  /** Applying two tables one after the other is applying their
      concatenation. */
  lemma {:induction false} ApplyAllAppend(s: Text, first: seq<Rule>, second: seq<Rule>)
    requires WellFormed(first) && WellFormed(second)
    ensures WellFormed(first + second)
    ensures ApplyAll(s, first + second) == ApplyAll(ApplyAll(s, first), second)
    decreases |first|
  {
    var all := first + second;
    if first == [] {
      assert all == second;
    } else {
      assert all[0] == first[0] && all[1..] == first[1..] + second;
      ApplyAllAppend(ReplaceAll(s, first[0].pat, first[0].rep), first[1..], second);
    }
  }

  /** The first rule runs first, over the whole text. */
  lemma ApplyAllCons(s: Text, rules: seq<Rule>)
    requires WellFormed(rules) && rules != []
    ensures WellFormed(rules[1..])
    ensures ApplyAll(s, rules) == ApplyAll(ReplaceAll(s, rules[0].pat, rules[0].rep), rules[1..])
  {
  }

  /** A table whose only rule with work to do is `r`, between rules that
      leave the text as it is before and after it, does what `r` does. */
  lemma ApplyAllAround(t: Text, u: Text, before: seq<Rule>, r: Rule, after: seq<Rule>)
    requires WellFormed(before) && |r.pat| > 0 && WellFormed(after)
    requires ApplyAll(t, before) == t
    requires ReplaceAll(t, r.pat, r.rep) == u
    requires ApplyAll(u, after) == u
    ensures WellFormed(before + [r] + after)
    ensures ApplyAll(t, before + [r] + after) == u
  {
    assert before + [r] + after == before + ([r] + after);
    ApplyAllAppend(t, before, [r] + after);
    ApplyAllCons(t, [r] + after);
    assert ([r] + after)[1..] == after;
  }
}

=== FILE: stages.dfy ===
/** The stages of the formatter after its literal rewrites: the three regular
    expressions, written out as byte-at-a-time functions, and the length
    budget. */
module Stages {
  import opened Bytes
  import opened Rendered

  /** Position of the first `b` in `s`, or `|s|` when `s` has none. */
  function IndexOf(s: Text, b: Byte): (k: nat)
    ensures k <= |s|
    ensures k < |s| ==> s[k] == b
    ensures forall i :: 0 <= i < k ==> s[i] != b
  {
    if s == [] then 0
    else if s[0] == b then 0
    else 1 + IndexOf(s[1..], b)
  }

  // ---------------------------------------------------------------------
  // `<[^>]*>` replaced by nothing

  /** Leftmost first, without overlap: a `<` that has a `>` somewhere after it
      is deleted together with everything up to and including the first such
      `>`; a `<` with no `>` after it is kept, as is every other byte. */
  function StripTags(s: Text): Text
    decreases |s|
  {
    if s == [] then []
    else
      var k := IndexOf(s[1..], GT);
      if s[0] == LT && k < |s[1..]| then StripTags(s[k + 2..])
      else [s[0]] + StripTags(s[1..])
  }

  lemma {:induction false} StripTagsSpec(s: Text)
    ensures NoTag(StripTags(s))
    ensures IsSubsequence(StripTags(s), s)
    ensures NoTag(s) ==> StripTags(s) == s
    decreases |s|
  {
    if s != [] {
      var k := IndexOf(s[1..], GT);
      NoTagUnfold(s);
      if s[0] == LT && k < |s[1..]| {
        StripTagsSpec(s[k + 2..]);
        SubsequenceOfSuffix(StripTags(s[k + 2..]), s, k + 2);
      } else {
        var r' := StripTags(s[1..]);
        StripTagsSpec(s[1..]);
        var r := [s[0]] + r';
        assert r[0] == s[0] && r[1..] == r';
        NoTagUnfold(r);
        if GT in r' {
          SubsequenceMembers(r', s[1..], GT);
        }
      }
    }
  }

  /** Bytes before any `<` are kept as they are. */
  lemma {:induction false} StripTagsKeepsPlain(a: Text, rest: Text)
    requires LT !in a
    ensures StripTags(a + rest) == a + StripTags(rest)
    decreases |a|
  {
    if a == [] {
      assert a + rest == rest;
    } else {
      var s := a + rest;
      assert s[0] == a[0] && s[1..] == a[1..] + rest;
      assert a[0] != LT;
      assert StripTags(s) == [s[0]] + StripTags(s[1..]);
      StripTagsKeepsPlain(a[1..], rest);
      assert [a[0]] + (a[1..] + StripTags(rest)) == a + StripTags(rest);
    }
  }

  /** A `<` is deleted together with everything up to the first `>` after it. */
  lemma StripTagsDeletesTag(c: Text, rest: Text)
    requires GT !in c
    ensures StripTags([LT] + c + [GT] + rest) == StripTags(rest)
  {
    var s := [LT] + c + [GT] + rest;
    var k := IndexOf(s[1..], GT);
    assert s[1..] == c + [GT] + rest;
    assert s[1..][|c|] == GT;
    assert k == |c|;
    assert s[k + 2..] == rest;
  }

  // ---------------------------------------------------------------------
  // `\n{3,}` replaced by "\n\n"

  /** Every run of three or more newlines becomes exactly two. `run` is the
      number of newlines met just before `s` in the input, counted up to 2:
      a newline is kept while fewer than two precede it. */
  function CollapseFrom(s: Text, run: nat): Text
    requires run <= 2
    decreases |s|
  {
    if s == [] then []
    else if s[0] == NL then
      if run < 2 then [NL] + CollapseFrom(s[1..], run + 1) else CollapseFrom(s[1..], 2)
    else [s[0]] + CollapseFrom(s[1..], 0)
  }

  function CollapseNewlines(s: Text): Text {
    CollapseFrom(s, 0)
  }

  const NewlineOnly: set<Byte> := {NL}

  /** The output holds no run of three newlines, counting the `run` newlines
      before it. */
  lemma {:induction false} CollapseFromNoRun(s: Text, run: nat)
    requires run <= 2
    ensures NoNewlineRun(Repeat(NL, run) + CollapseFrom(s, run))
    decreases |s|
  {
    var r := CollapseFrom(s, run);
    if s == [] {
      assert Repeat(NL, run) + r == Repeat(NL, run);
    } else if s[0] == NL {
      if run < 2 {
        CollapseFromNoRun(s[1..], run + 1);
        assert Repeat(NL, run) + r == Repeat(NL, run + 1) + CollapseFrom(s[1..], run + 1);
      } else {
        CollapseFromNoRun(s[1..], 2);
      }
    } else {
      var r' := CollapseFrom(s[1..], 0);
      CollapseFromNoRun(s[1..], 0);
      assert Repeat(NL, 0) + r' == r';
      NoNewlineRunJoin(Repeat(NL, run), s[0], r');
      assert Repeat(NL, run) + r == Repeat(NL, run) + [s[0]] + r';
    }
  }

  /** Only newlines are deleted, and nothing is added or reordered. */
  lemma {:induction false} CollapseFromDeletesNewlines(s: Text, run: nat)
    requires run <= 2
    ensures IsSubsequence(CollapseFrom(s, run), s)
    ensures Erase(CollapseFrom(s, run), NewlineOnly) == Erase(s, NewlineOnly)
    decreases |s|
  {
    var r := CollapseFrom(s, run);
    if s != [] {
      var next := if s[0] != NL then 0 else if run < 2 then run + 1 else 2;
      var r' := CollapseFrom(s[1..], next);
      CollapseFromDeletesNewlines(s[1..], next);
      if s[0] == NL && run == 2 {
        SubsequenceOfSuffix(r', s, 1);
      } else {
        assert r[0] == s[0] && r[1..] == r';
      }
    }
  }

  /** Text without a run of three newlines is left as it is. */
  lemma {:induction false} CollapseFromUnchanged(s: Text, run: nat)
    requires run <= 2
    requires NoNewlineRun(Repeat(NL, run) + s)
    ensures CollapseFrom(s, run) == s
    decreases |s|
  {
    if s != [] {
      var w := Repeat(NL, run) + s;
      if s[0] == NL {
        assert forall i :: 0 <= i < run ==> w[i] == NL;
        assert w[run] == NL;
        assert |w| >= 3 ==> !(w[0] == NL && w[1] == NL && w[2] == NL);
        assert run < 2;
        assert w == Repeat(NL, run + 1) + s[1..];
        CollapseFromUnchanged(s[1..], run + 1);
      } else {
        assert w == (Repeat(NL, run) + [s[0]]) + s[1..];
        NoNewlineRunSuffix(Repeat(NL, run) + [s[0]], s[1..]);
        assert Repeat(NL, 0) + s[1..] == s[1..];
        CollapseFromUnchanged(s[1..], 0);
      }
    }
  }

  /** A run of `k` newlines, met when `run` newlines are already counted and
      followed by a byte that is not a newline, keeps just enough newlines to
      bring the count to two: a run of three or more becomes exactly two. */
  lemma {:induction false} CollapseRun(k: nat, t: Text, run: nat)
    requires run <= 2
    requires t == [] || t[0] != NL
    ensures CollapseFrom(Repeat(NL, k) + t, run)
         == Repeat(NL, if k + run <= 2 then k else 2 - run) + CollapseFrom(t, 0)
    decreases k
  {
    if k == 0 {
      CollapseRunEnds(t, run);
    } else {
      CollapseRunStep(k, t, run);
      if run < 2 {
        CollapseRun(k - 1, t, run + 1);
        var m := if k + run <= 2 then k else 2 - run;
        KeepNewline(m, CollapseFrom(t, 0));
      } else {
        CollapseRun(k - 1, t, 2);
      }
    }
  }

  /** At a byte that is not a newline the count of newlines starts over. */
  lemma CollapseRunEnds(t: Text, run: nat)
    requires run <= 2
    requires t == [] || t[0] != NL
    ensures CollapseFrom(Repeat(NL, 0) + t, run) == Repeat(NL, 0) + CollapseFrom(t, 0)
  {
    assert Repeat(NL, 0) + t == t;
    assert Repeat(NL, 0) + CollapseFrom(t, 0) == CollapseFrom(t, 0);
  }

  lemma CollapseRunStep(k: nat, t: Text, run: nat)
    requires run <= 2 && k > 0
    ensures CollapseFrom(Repeat(NL, k) + t, run)
         == if run < 2 then [NL] + CollapseFrom(Repeat(NL, k - 1) + t, run + 1)
            else CollapseFrom(Repeat(NL, k - 1) + t, 2)
  {
    var s := Repeat(NL, k) + t;
    assert s[0] == NL && s[1..] == Repeat(NL, k - 1) + t;
  }

  lemma KeepNewline(m: nat, r: Text)
    requires m > 0
    ensures [NL] + (Repeat(NL, m - 1) + r) == Repeat(NL, m) + r
  {
    assert [NL] + Repeat(NL, m - 1) == Repeat(NL, m);
  }

  /** Bytes of one line are copied, and the collapse goes on after them with
      no newline counted. */
  lemma {:induction false} CollapseKeepsLine(a: Text, rest: Text)
    requires NL !in a
    ensures CollapseFrom(a + rest, 0) == a + CollapseFrom(rest, 0)
    decreases |a|
  {
    if a == [] {
      assert a + rest == rest;
    } else {
      var s := a + rest;
      assert s[0] == a[0] && s[1..] == a[1..] + rest;
      CollapseKeepsLine(a[1..], rest);
      assert [a[0]] + (a[1..] + CollapseFrom(rest, 0)) == a + CollapseFrom(rest, 0);
    }
  }

  /** Shortening newline runs keeps every line start free of spaces and tabs:
      the byte after a run was already at a line start. */
  lemma {:induction false} CollapseKeepsNoIndent(s: Text, run: nat, atStart: bool)
    requires run <= 2
    requires run > 0 ==> atStart
    requires NoIndentAt(s, atStart)
    ensures NoIndentAt(CollapseFrom(s, run), atStart)
    decreases |s|
  {
    if s != [] {
      NoIndentUnfold(s, atStart);
      var r := CollapseFrom(s, run);
      if s[0] == NL {
        var next := if run < 2 then run + 1 else 2;
        CollapseKeepsNoIndent(s[1..], next, true);
        if run < 2 {
          NoIndentUnfold(r, atStart);
          assert r[0] == NL && r[1..] == CollapseFrom(s[1..], next);
        }
      } else {
        CollapseKeepsNoIndent(s[1..], 0, false);
        NoIndentUnfold(r, atStart);
        assert r[0] == s[0] && r[1..] == CollapseFrom(s[1..], 0);
      }
    }
  }

  // ---------------------------------------------------------------------
  // `(?m)^[ \t]+` replaced by nothing

  /** The spaces and tabs that open each line are deleted. `atStart` says
      whether `s` begins a line. */
  function TrimFrom(s: Text, atStart: bool): Text
    decreases |s|
  {
    if s == [] then []
    else if atStart && IsBlank(s[0]) then TrimFrom(s[1..], true)
    else [s[0]] + TrimFrom(s[1..], s[0] == NL)
  }

  function TrimLineStarts(s: Text): Text {
    TrimFrom(s, true)
  }

  lemma {:induction false} TrimFromSpec(s: Text, atStart: bool)
    ensures NoIndentAt(TrimFrom(s, atStart), atStart)
    ensures IsSubsequence(TrimFrom(s, atStart), s)
    ensures Erase(TrimFrom(s, atStart), Blanks) == Erase(s, Blanks)
    ensures NoIndentAt(s, atStart) ==> TrimFrom(s, atStart) == s
    decreases |s|
  {
    if s != [] {
      NoIndentUnfold(s, atStart);
      var r := TrimFrom(s, atStart);
      if atStart && IsBlank(s[0]) {
        TrimFromSpec(s[1..], true);
        SubsequenceOfSuffix(r, s, 1);
      } else {
        TrimFromSpec(s[1..], s[0] == NL);
        assert r[0] == s[0] && r[1..] == TrimFrom(s[1..], s[0] == NL);
        NoIndentUnfold(r, atStart);
      }
    }
  }

  /** The spaces and tabs that open a line are all deleted. */
  lemma {:induction false} TrimDropsIndent(w: Text, x: Text)
    requires forall i :: 0 <= i < |w| ==> IsBlank(w[i])
    ensures TrimFrom(w + x, true) == TrimFrom(x, true)
    decreases |w|
  {
    if w == [] {
      assert w + x == x;
    } else {
      assert (w + x)[0] == w[0] && (w + x)[1..] == w[1..] + x;
      TrimDropsIndent(w[1..], x);
    }
  }

  /** Past the start of a line, bytes up to its end are kept, spaces and tabs
      included. */
  lemma {:induction false} TrimKeepsLineRest(a: Text, rest: Text)
    requires NL !in a
    ensures TrimFrom(a + rest, false) == a + TrimFrom(rest, false)
    decreases |a|
  {
    if a == [] {
      assert a + rest == rest;
    } else {
      var s := a + rest;
      assert s[0] == a[0] && s[1..] == a[1..] + rest;
      TrimKeepsLineRest(a[1..], rest);
      assert [a[0]] + (a[1..] + TrimFrom(rest, false)) == a + TrimFrom(rest, false);
    }
  }

  /** Line by line: a line loses exactly its leading spaces and tabs, and the
      next line is trimmed in turn. */
  lemma TrimLine(w: Text, a: Text, rest: Text)
    requires forall i :: 0 <= i < |w| ==> IsBlank(w[i])
    requires NL !in a && (a == [] || !IsBlank(a[0]))
    ensures TrimFrom(w + a + [NL] + rest, true) == a + [NL] + TrimFrom(rest, true)
    ensures TrimFrom(w + a, true) == a
  {
    TrimNextLine(w, a, rest);
    TrimDropsIndent(w, a);
    TrimLineFrom(a, []);
    assert a + [] == a;
  }

  lemma TrimNextLine(w: Text, a: Text, rest: Text)
    requires forall i :: 0 <= i < |w| ==> IsBlank(w[i])
    requires NL !in a && (a == [] || !IsBlank(a[0]))
    ensures TrimFrom(w + a + [NL] + rest, true) == a + [NL] + TrimFrom(rest, true)
  {
    var line := [NL] + rest;
    assert w + a + [NL] + rest == w + (a + line);
    TrimDropsIndent(w, a + line);
    TrimLineFrom(a, line);
    assert line[0] == NL && line[1..] == rest;
    assert TrimFrom(line, a == []) == [NL] + TrimFrom(rest, true);
    assert a + ([NL] + TrimFrom(rest, true)) == a + [NL] + TrimFrom(rest, true);
  }

  /** A line that does not open with a space or a tab is kept up to its end. */
  lemma TrimLineFrom(a: Text, rest: Text)
    requires NL !in a && (a == [] || !IsBlank(a[0]))
    ensures TrimFrom(a + rest, true) == a + TrimFrom(rest, a == [])
  {
    if a == [] {
      assert a + rest == rest;
    } else {
      var s := a + rest;
      assert s[0] == a[0] && s[1..] == a[1..] + rest;
      TrimKeepsLineRest(a[1..], rest);
      assert [a[0]] + (a[1..] + TrimFrom(rest, false)) == a + TrimFrom(rest, false);
    }
  }

  // ---------------------------------------------------------------------
  // `(?m)^[ \t]*\n` replaced by "\n"

  /** Number of spaces and tabs `s` starts with. */
  function BlankRun(s: Text): (k: nat)
    ensures k <= |s|
    ensures forall i :: 0 <= i < k ==> IsBlank(s[i])
    ensures k < |s| ==> !IsBlank(s[k])
  {
    if s != [] && IsBlank(s[0]) then 1 + BlankRun(s[1..]) else 0
  }

  /** A line holding only spaces and tabs and ended by a newline is emptied;
      its newline stays. `atStart` says whether `s` begins a line. */
  function SquashFrom(s: Text, atStart: bool): Text
    decreases |s|
  {
    if s == [] then []
    else
      var k := BlankRun(s);
      if atStart && k < |s| && s[k] == NL then [NL] + SquashFrom(s[k + 1..], true)
      else [s[0]] + SquashFrom(s[1..], s[0] == NL)
  }

  function SquashBlankLines(s: Text): Text {
    SquashFrom(s, true)
  }

  /** Only spaces and tabs are deleted, and nothing is added or reordered. */
  lemma {:induction false} SquashFromDeletesBlanks(s: Text, atStart: bool)
    ensures IsSubsequence(SquashFrom(s, atStart), s)
    ensures Erase(SquashFrom(s, atStart), Blanks) == Erase(s, Blanks)
    decreases |s|
  {
    if s != [] {
      var r := SquashFrom(s, atStart);
      var k := BlankRun(s);
      if atStart && k < |s| && s[k] == NL {
        var r' := SquashFrom(s[k + 1..], true);
        SquashFromDeletesBlanks(s[k + 1..], true);
        assert s[k..][1..] == s[k + 1..] && s[k..][0] == NL;
        assert r[0] == NL && r[1..] == r';
        SubsequenceOfSuffix(r, s, k);
        EraseSkip(s, k, Blanks);
      } else {
        var r' := SquashFrom(s[1..], s[0] == NL);
        SquashFromDeletesBlanks(s[1..], s[0] == NL);
        assert r[0] == s[0] && r[1..] == r';
      }
    }
  }

  /** A line of only spaces and tabs ended by a newline is emptied, and the
      squash goes on at the next line; without the newline it is kept. */
  lemma SquashBlankLine(w: Text, rest: Text)
    requires forall i :: 0 <= i < |w| ==> IsBlank(w[i])
    ensures SquashFrom(w + [NL] + rest, true) == [NL] + SquashFrom(rest, true)
    ensures SquashFrom(w, true) == w
  {
    var s := w + [NL] + rest;
    BlankRunOf(w, [NL] + rest);
    assert s == w + ([NL] + rest);
    assert s[|w| + 1..] == rest;
    if w != [] {
      assert BlankRun(w) == |w|;
      SquashKeepsLineRest(w[1..], []);
      assert w[1..] + [] == w[1..];
    }
  }

  /** The blank run of `w + x` is `w` when `w` is all spaces and tabs and `x`
      starts with another byte. */
  lemma BlankRunOf(w: Text, x: Text)
    requires forall i :: 0 <= i < |w| ==> IsBlank(w[i])
    requires x != [] && !IsBlank(x[0])
    ensures BlankRun(w + x) == |w| && (w + x)[|w|] == x[0]
  {
    var s := w + x;
    assert forall i :: 0 <= i < |w| ==> s[i] == w[i];
    assert s[|w|] == x[0];
  }

  /** Past the start of a line, bytes up to its end are kept. */
  lemma {:induction false} SquashKeepsLineRest(a: Text, rest: Text)
    requires NL !in a
    ensures SquashFrom(a + rest, false) == a + SquashFrom(rest, false)
    decreases |a|
  {
    if a == [] {
      assert a + rest == rest;
    } else {
      var s := a + rest;
      assert s[0] == a[0] && s[1..] == a[1..] + rest;
      SquashKeepsLineRest(a[1..], rest);
      assert [a[0]] + (a[1..] + SquashFrom(rest, false)) == a + SquashFrom(rest, false);
    }
  }

  /** A line holding a byte other than space and tab is kept whole, and the
      squash starts again at the next line. */
  lemma SquashKeepsLine(a: Text, j: nat, rest: Text)
    requires NL !in a
    requires j < |a| && !IsBlank(a[j])
    ensures SquashFrom(a + rest, true) == a + SquashFrom(rest, false)
    ensures SquashFrom(a + [NL] + rest, true) == a + [NL] + SquashFrom(rest, true)
    ensures SquashFrom(a, true) == a
  {
    SquashKeptLineNext(a, j, rest);
    SquashKeptLineLast(a, j);
    SquashKeptLineFrom(a, j, rest);
  }

  lemma SquashKeptLineNext(a: Text, j: nat, rest: Text)
    requires NL !in a
    requires j < |a| && !IsBlank(a[j])
    ensures SquashFrom(a + [NL] + rest, true) == a + [NL] + SquashFrom(rest, true)
  {
    var line := [NL] + rest;
    SquashKeptLineFrom(a, j, line);
    SquashResumesAtLine(rest);
    Regroup(a, [NL], rest);
    Regroup(a, [NL], SquashFrom(rest, true));
  }

  lemma SquashKeptLineLast(a: Text, j: nat)
    requires NL !in a
    requires j < |a| && !IsBlank(a[j])
    ensures SquashFrom(a, true) == a
  {
    SquashKeptLineFrom(a, j, []);
    assert a + [] == a;
  }

  /** A newline ends the line, and the squash starts again at the next line. */
  lemma SquashResumesAtLine(rest: Text)
    ensures SquashFrom([NL] + rest, false) == [NL] + SquashFrom(rest, true)
  {
    assert ([NL] + rest)[0] == NL && ([NL] + rest)[1..] == rest;
  }

  lemma SquashKeptLineFrom(a: Text, j: nat, rest: Text)
    requires NL !in a
    requires j < |a| && !IsBlank(a[j])
    ensures SquashFrom(a + rest, true) == a + SquashFrom(rest, false)
  {
    BlankRunInLine(a, j, rest);
    SquashLineKept(a + rest);
    SplitHead(a, rest);
    SquashKeepsLineRest(a[1..], rest);
    JoinHead(a, SquashFrom(rest, false));
  }

  /** A line whose blank run does not reach a newline is not squashed. */
  lemma SquashLineKept(s: Text)
    requires s != [] && BlankRun(s) < |s| && s[BlankRun(s)] != NL
    ensures SquashFrom(s, true) == [s[0]] + SquashFrom(s[1..], false)
  {
    if BlankRun(s) > 0 {
      assert IsBlank(s[0]);
    }
  }

  lemma SplitHead(a: Text, rest: Text)
    requires a != []
    ensures (a + rest)[0] == a[0] && (a + rest)[1..] == a[1..] + rest
  {
  }

  lemma JoinHead(a: Text, r: Text)
    requires a != []
    ensures [a[0]] + (a[1..] + r) == a + r
  {
    assert [a[0]] + a[1..] == a;
  }

  /** The blank run of a line with some other byte ends inside the line. */
  lemma BlankRunInLine(a: Text, j: nat, rest: Text)
    requires NL !in a
    requires j < |a| && !IsBlank(a[j])
    ensures BlankRun(a + rest) < |a| && (a + rest)[BlankRun(a + rest)] != NL
  {
    var s := a + rest;
    var k := BlankRun(s);
    assert s[j] == a[j];
    assert k <= j;
    assert s[k] == a[k];
  }

  /** On text whose lines do not start with a space or a tab there is nothing
      to squash: a blank line is then already empty. */
  lemma {:induction false} SquashFromUnchanged(s: Text, atStart: bool)
    requires NoIndentAt(s, atStart)
    ensures SquashFrom(s, atStart) == s
    decreases |s|
  {
    if s != [] {
      NoIndentUnfold(s, atStart);
      var k := BlankRun(s);
      if atStart && k < |s| && s[k] == NL {
        assert k == 0;
        SquashFromUnchanged(s[1..], true);
      } else {
        SquashFromUnchanged(s[1..], s[0] == NL);
      }
    }
  }

  // ---------------------------------------------------------------------
  // The length budget

  const MaxLength: nat := 4000
  const Ellipsis: Text := "..."

  /** Text longer than the budget is cut to its first `MaxLength - 3` bytes
      and marked with "..."; shorter text is returned as it is. */
  function Truncate(s: Text): (r: Text)
    ensures |r| <= MaxLength
    ensures forall b :: b in r ==> b in s || b == '.'
    ensures |s| <= MaxLength ==> r == s
    ensures |s| > MaxLength ==>
              |r| == MaxLength && r == s[..MaxLength - |Ellipsis|] + Ellipsis
  {
    if |s| > MaxLength then s[..MaxLength - 3] + Ellipsis else s
  }

  /** The cut never splits the invariants: a prefix keeps them and the marker
      holds no `<`, `>`, newline, space or tab. */
  lemma TruncateKeepsInvariants(s: Text)
    ensures NoTag(s) ==> NoTag(Truncate(s))
    ensures NoNewlineRun(s) ==> NoNewlineRun(Truncate(s))
    ensures NoIndent(s) ==> NoIndent(Truncate(s))
  {
    if |s| > MaxLength {
      var n := MaxLength - 3;
      var r := Truncate(s);
      assert forall i :: 0 <= i < n ==> r[i] == s[i];
      assert forall i :: n <= i < |r| ==> r[i] == '.';
    }
  }
}

=== FILE: tag_examples.dfy ===
/** The known-tag rewrites at work. The general result, `KnownTagsRewritten`,
    says that text made of plain stretches and tags the table knows comes out
    as its tag-by-tag rewriting whenever that rewriting is already clean. The
    examples instantiate it for lists, the example marker, code blocks and
    inline code, with the inner text left open. */
module TagExamples {
  import opened Bytes
  import opened Replace
  import opened Rendered
  import opened Stages
  import opened Pieces
  import opened Formatter

  /** Every pattern of the tag table is one whole tag and no replacement
      holds a `<`. Checked group by group, as the source lists them. */
  lemma TagRulesAreTags()
    ensures TagTable(TagRules)
  {
    ParagraphAndCodeRulesShaped();
    ListRulesShaped();
    StrongRulesShaped();
    EmphasisRulesShaped();
    SpanRulesShaped();
    DivRulesShaped();
  }

  lemma ParagraphAndCodeRulesShaped()
    ensures forall i :: 0 <= i < 6 ==> TagShaped(TagRules[i].pat) && LT !in TagRules[i].rep
  {
  }

  lemma ListRulesShaped()
    ensures forall i :: 6 <= i < 10 ==> TagShaped(TagRules[i].pat) && LT !in TagRules[i].rep
  {
  }

  lemma StrongRulesShaped()
    ensures forall i :: 10 <= i < 13 ==> TagShaped(TagRules[i].pat) && LT !in TagRules[i].rep
  {
    StrongExampleRuleShaped();
    assert TagShaped(TagRules[10].pat) && TagShaped(TagRules[12].pat);
  }

  lemma StrongExampleRuleShaped()
    ensures TagShaped(TagRules[11].pat) && LT !in TagRules[11].rep
  {
    ExampleTagShaped();
  }

  lemma ExampleTagShaped()
    ensures TagShaped("<strong class=\"example\">")
  {
  }

  lemma EmphasisRulesShaped()
    ensures forall i :: 13 <= i < 17 ==> TagShaped(TagRules[i].pat) && LT !in TagRules[i].rep
  {
  }

  lemma SpanRulesShaped()
    ensures forall i :: 17 <= i < 19 ==> TagShaped(TagRules[i].pat) && LT !in TagRules[i].rep
  {
    SpanRuleShaped();
    assert TagShaped(TagRules[18].pat);
  }

  lemma SpanRuleShaped()
    ensures TagShaped(TagRules[17].pat) && LT !in TagRules[17].rep
  {
  }

  lemma DivRulesShaped()
    ensures forall i :: 19 <= i < 21 ==> TagShaped(TagRules[i].pat) && LT !in TagRules[i].rep
  {
    DivRuleShaped();
    assert TagShaped(TagRules[20].pat);
  }

  lemma DivRuleShaped()
    ensures TagShaped(TagRules[19].pat) && LT !in TagRules[19].rep
  {
  }

  /** Input whose every tag is rewritten by the table, and whose rewriting
      leaves no `<`, no `&`, no indented line, no newline run and at most
      4000 bytes, is formatted into exactly that rewriting. */
  lemma KnownTagsRewritten(ps: seq<Piece>)
    requires ValidPieces(ps)
    requires LT !in Join(RewritePieces(ps, TagRules)) && AMP !in Join(RewritePieces(ps, TagRules))
    requires NoIndent(Join(RewritePieces(ps, TagRules))) && NoNewlineRun(Join(RewritePieces(ps, TagRules)))
    requires |Join(RewritePieces(ps, TagRules))| <= MaxLength
    ensures FormatHTMLContent(Join(ps)) == Join(RewritePieces(ps, TagRules))
  {
    TagRulesAreTags();
    ApplyAllPieces(ps, TagRules);
    CleanAfterTags(Join(ps), Join(RewritePieces(ps, TagRules)));
    CleanEmpty();
  }

  lemma JoinCons(p: Piece, qs: seq<Piece>)
    ensures Join([p] + qs) == p.text + Join(qs)
  {
    assert ([p] + qs)[1..] == qs;
  }

  /** Inner text that stays on one line and holds no markup. */
  predicate Inline(x: Text) {
    LT !in x && AMP !in x && NL !in x
  }

  // ---------------------------------------------------------------------
  // The table entries the examples use

  lemma UlRule()
    ensures RewritePiece(Tag("<ul>"), TagRules) == Plain("")
  {
    FirstRuleWins("<ul>", TagRules, 6);
  }

  lemma UlEndRule()
    ensures RewritePiece(Tag("</ul>"), TagRules) == Plain("")
  {
    FirstRuleWins("</ul>", TagRules, 7);
  }

  lemma LiRule()
    ensures RewritePiece(Tag("<li>"), TagRules) == Plain(Bullet)
  {
    FirstRuleWins("<li>", TagRules, 8);
  }

  lemma LiEndRule()
    ensures RewritePiece(Tag("</li>"), TagRules) == Plain("\n")
  {
    FirstRuleWins("</li>", TagRules, 9);
  }

  /** `<strong>` comes first in the table but is a different literal, so the
      example variant still gets its own replacement. */
  lemma StrongExampleRule()
    ensures RewritePiece(Tag("<strong class=\"example\">"), TagRules) == Plain(PointingHand + "**")
  {
    FirstRuleWins("<strong class=\"example\">", TagRules, 11);
  }

  lemma StrongEndRule()
    ensures RewritePiece(Tag("</strong>"), TagRules) == Plain("**")
  {
    FirstRuleWins("</strong>", TagRules, 12);
  }

  lemma PreRule()
    ensures RewritePiece(Tag("<pre>"), TagRules) == Plain("```\n")
  {
    FirstRuleWins("<pre>", TagRules, 2);
  }

  lemma PreEndRule()
    ensures RewritePiece(Tag("</pre>"), TagRules) == Plain("\n```")
  {
    FirstRuleWins("</pre>", TagRules, 3);
  }

  lemma CodeRule()
    ensures RewritePiece(Tag("<code>"), TagRules) == Plain("`")
  {
    FirstRuleWins("<code>", TagRules, 4);
  }

  lemma CodeEndRule()
    ensures RewritePiece(Tag("</code>"), TagRules) == Plain("`")
  {
    FirstRuleWins("</code>", TagRules, 5);
  }

  // ---------------------------------------------------------------------
  // A two-item list

  function ListPieces(a: Text, b: Text): seq<Piece> {
    [Tag("<ul>"), Tag("<li>"), Plain(a), Tag("</li>"), Tag("<li>"), Plain(b), Tag("</li>"), Tag("</ul>")]
  }

  lemma ListValid(a: Text, b: Text)
    requires LT !in a && LT !in b
    ensures ValidPieces(ListPieces(a, b))
  {
  }

  lemma ListJoin(a: Text, b: Text)
    ensures Join(ListPieces(a, b)) == "<ul>" + "<li>" + a + "</li>" + "<li>" + b + "</li>" + "</ul>"
  {
    NestedJoin("<ul>", "<li>", "</li>", "</ul>", a, b);
  }

  /** Two items between an outer pair of tags join to the text they spell. */
  lemma NestedJoin(ul: Text, li: Text, eli: Text, eul: Text, a: Text, b: Text)
    ensures Join([Tag(ul), Tag(li), Plain(a), Tag(eli), Tag(li), Plain(b), Tag(eli), Tag(eul)])
         == ul + li + a + eli + li + b + eli + eul
  {
    var last := [Tag(eul)];
    var second := [Tag(li), Plain(b), Tag(eli)];
    var first := [Tag(li), Plain(a), Tag(eli)];
    JoinCons(Tag(eul), []);
    TripleJoin(Tag(li), Plain(b), Tag(eli), last);
    TripleJoin(Tag(li), Plain(a), Tag(eli), second + last);
    JoinCons(Tag(ul), first + (second + last));
    assert [Tag(ul), Tag(li), Plain(a), Tag(eli), Tag(li), Plain(b), Tag(eli), Tag(eul)]
        == [Tag(ul)] + (first + (second + last));
  }

  lemma TripleJoin(p: Piece, q: Piece, r: Piece, rest: seq<Piece>)
    ensures Join([p, q, r] + rest) == p.text + q.text + r.text + Join(rest)
  {
    JoinCons(r, rest);
    JoinCons(q, [r] + rest);
    JoinCons(p, [q] + ([r] + rest));
    assert [p, q, r] + rest == [p] + ([q] + ([r] + rest));
  }

  lemma ListRewrite(a: Text, b: Text, rules: seq<Rule>)
    requires RewritePiece(Tag("<ul>"), rules) == Plain("") && RewritePiece(Tag("</ul>"), rules) == Plain("")
    requires RewritePiece(Tag("<li>"), rules) == Plain(Bullet) && RewritePiece(Tag("</li>"), rules) == Plain("\n")
    ensures RewritePieces(ListPieces(a, b), rules) ==
              [Plain(""), Plain(Bullet), Plain(a), Plain("\n"), Plain(Bullet), Plain(b), Plain("\n"), Plain("")]
  {
  }

  lemma ListOutJoin(a: Text, b: Text)
    ensures Join([Plain(""), Plain(Bullet), Plain(a), Plain("\n"), Plain(Bullet), Plain(b), Plain("\n"), Plain("")])
         == Bullet + a + "\n" + Bullet + b + "\n"
  {
    var tail := BulletPieces(b) + [Plain("")];
    BulletJoin(b, [Plain("")]);
    JoinCons(Plain(""), []);
    BulletJoin(a, tail);
    JoinCons(Plain(""), BulletPieces(a) + tail);
    assert [Plain(""), Plain(Bullet), Plain(a), Plain("\n"), Plain(Bullet), Plain(b), Plain("\n"), Plain("")]
        == [Plain("")] + (BulletPieces(a) + tail);
  }

  function BulletPieces(x: Text): seq<Piece> {
    [Plain(Bullet), Plain(x), Plain("\n")]
  }

  lemma BulletJoin(x: Text, rest: seq<Piece>)
    ensures Join(BulletPieces(x) + rest) == Bullet + x + "\n" + Join(rest)
  {
    JoinCons(Plain("\n"), rest);
    JoinCons(Plain(x), [Plain("\n")] + rest);
    JoinCons(Plain(Bullet), [Plain(x)] + ([Plain("\n")] + rest));
    assert BulletPieces(x) + rest == [Plain(Bullet)] + ([Plain(x)] + ([Plain("\n")] + rest));
  }

  lemma ListOutputClean(a: Text, b: Text)
    requires Inline(a) && Inline(b)
    ensures var t := Bullet + a + "\n" + Bullet + b + "\n";
      LT !in t && AMP !in t && NoIndent(t) && NoNewlineRun(t)
  {
    var la := Bullet + a;
    var lb := Bullet + b;
    assert Bullet + a + "\n" + Bullet + b + "\n" == (la + "\n") + (lb + "\n");
    assert la[0] == Bullet[0] && lb[0] == Bullet[0];
    TwoLinesClean(la, lb);
  }

  /** Two unindented lines, each ended by a newline, are clean. */
  lemma TwoLinesClean(la: Text, lb: Text)
    requires NL !in la && NL !in lb
    requires la != [] && !IsBlank(la[0]) && lb != [] && lb[0] != NL && !IsBlank(lb[0])
    ensures NoIndent((la + "\n") + (lb + "\n")) && NoNewlineRun((la + "\n") + (lb + "\n"))
  {
    NoIndentSingleLine(la, true);
    NoIndentSingleLine(lb, true);
    NoIndentConcat(la, "\n", true);
    NoIndentConcat(lb, "\n", true);
    NoIndentConcat(la + "\n", lb + "\n", true);
    NoNewlineRunSingleLine(la);
    NoNewlineRunSingleLine(lb);
    var rest := (lb + "\n")[1..];
    assert (lb + "\n")[0] == lb[0];
    NoNewlineRunSuffix([lb[0]], rest);
    assert lb + "\n" == [lb[0]] + rest;
    NoNewlineRunJoin(la + "\n", lb[0], rest);
  }

  /** A list of two one-line items becomes two bullet lines. */
  lemma ListExample(a: Text, b: Text)
    requires Inline(a) && Inline(b) && |a| + |b| <= MaxLength - 10
    ensures FormatHTMLContent("<ul>" + "<li>" + a + "</li>" + "<li>" + b + "</li>" + "</ul>")
         == Bullet + a + "\n" + Bullet + b + "\n"
  {
    ListValid(a, b);
    ListJoin(a, b);
    UlRule();
    UlEndRule();
    LiRule();
    LiEndRule();
    ListRewrite(a, b, TagRules);
    ListOutJoin(a, b);
    ListOutputClean(a, b);
    KnownTagsRewritten(ListPieces(a, b));
  }

  // ---------------------------------------------------------------------
  // One tag pair around inner text

  function WrapPieces(open: Text, x: Text, close: Text): seq<Piece> {
    [Tag(open), Plain(x), Tag(close)]
  }

  lemma WrapJoin(open: Text, x: Text, close: Text, before: Text, after: Text, rules: seq<Rule>)
    requires RewritePiece(Tag(open), rules) == Plain(before)
    requires RewritePiece(Tag(close), rules) == Plain(after)
    ensures Join(WrapPieces(open, x, close)) == open + x + close
    ensures Join(RewritePieces(WrapPieces(open, x, close), rules)) == before + x + after
  {
    var ps := WrapPieces(open, x, close);
    assert RewritePieces(ps, rules) == [Plain(before), Plain(x), Plain(after)];
    JoinCons(Tag(close), []);
    JoinCons(Plain(x), [Tag(close)]);
    JoinCons(Tag(open), [Plain(x), Tag(close)]);
    assert ps == [Tag(open)] + ([Plain(x)] + [Tag(close)]);
    JoinCons(Plain(after), []);
    JoinCons(Plain(x), [Plain(after)]);
    JoinCons(Plain(before), [Plain(x), Plain(after)]);
    assert [Plain(before), Plain(x), Plain(after)] == [Plain(before)] + ([Plain(x)] + [Plain(after)]);
  }

  /** A known tag pair around inner text becomes the pair's replacements
      around the same text, when that result is clean. */
  lemma WrapRewritten(open: Text, x: Text, close: Text, before: Text, after: Text)
    requires LT !in x
    requires RewritePiece(Tag(open), TagRules) == Plain(before)
    requires RewritePiece(Tag(close), TagRules) == Plain(after)
    requires LT !in before + x + after && AMP !in before + x + after
    requires NoIndent(before + x + after) && NoNewlineRun(before + x + after)
    requires |before + x + after| <= MaxLength
    ensures FormatHTMLContent(open + x + close) == before + x + after
  {
    var ps := WrapPieces(open, x, close);
    TagRulesAreTags();
    RewrittenTagShaped(open, TagRules);
    RewrittenTagShaped(close, TagRules);
    assert ValidPieces(ps);
    WrapJoin(open, x, close, before, after, TagRules);
    KnownTagsRewritten(ps);
  }

  /** One line with no newline and no markup, opening with a byte that is
      not a space or a tab, is clean. */
  lemma SingleLineClean(t: Text)
    requires LT !in t && AMP !in t && NL !in t
    requires t != [] && !IsBlank(t[0])
    ensures NoIndent(t) && NoNewlineRun(t)
  {
    NoIndentSingleLine(t, true);
    NoNewlineRunSingleLine(t);
  }

  /** The example marker is rewritten to the pointing hand and bold. */
  lemma StrongExample(x: Text)
    requires Inline(x) && |x| <= MaxLength - 8
    ensures FormatHTMLContent("<strong class=\"example\">" + x + "</strong>") == PointingHand + "**" + x + "**"
  {
    StrongExampleRule();
    StrongEndRule();
    StrongOutputClean(x);
    WrapRewritten("<strong class=\"example\">", x, "</strong>", PointingHand + "**", "**");
  }

  lemma StrongOutputClean(x: Text)
    requires Inline(x)
    ensures var t := PointingHand + "**" + x + "**";
      LT !in t && AMP !in t && NoIndent(t) && NoNewlineRun(t)
  {
    var t := PointingHand + "**" + x + "**";
    assert t[0] == PointingHand[0];
    SingleLineClean(t);
  }

  /** Inline code is wrapped in single backquotes. */
  lemma CodeExample(x: Text)
    requires Inline(x) && |x| <= MaxLength - 2
    ensures FormatHTMLContent("<code>" + x + "</code>") == "`" + x + "`"
  {
    CodeRule();
    CodeEndRule();
    var t := "`" + x + "`";
    assert t[0] == '`';
    SingleLineClean(t);
    WrapRewritten("<code>", x, "</code>", "`", "`");
  }

  lemma PreOutputClean(x: Text)
    requires Inline(x) && (x == [] || !IsBlank(x[0]))
    ensures var t := "```\n" + x + "\n```";
      LT !in t && AMP !in t && NoIndent(t) && NoNewlineRun(t)
  {
    PreNoIndent(x);
    PreNoNewlineRun(x);
  }

  lemma PreNoIndent(x: Text)
    requires NL !in x && (x == [] || !IsBlank(x[0]))
    ensures NoIndent("```\n" + x + "\n```")
  {
    var fence: Text := "```";
    NoIndentSingleLine(fence, true);
    NoIndentConcat(fence, "\n", true);
    NoIndentSingleLine(x, true);
    NoIndentConcat(fence + "\n", x, true);
    var head := fence + "\n" + x;
    assert head[|head| - 1] == (if x == [] then NL else x[|x| - 1]);
    NoIndentConcat(head, "\n", true);
    NoIndentConcat(head + "\n", fence, true);
    assert "```\n" + x + "\n```" == head + "\n" + fence;
  }

  lemma PreNoNewlineRun(x: Text)
    requires NL !in x
    ensures NoNewlineRun("```\n" + x + "\n```")
  {
    var t := "```\n" + x + "\n```";
    forall i | 0 <= i && i + 2 < |t|
      ensures !(t[i] == NL && t[i + 1] == NL && t[i + 2] == NL)
    {
      if i < 3 {
        assert t[i] == '`';
      } else if i == 3 {
        if x != [] {
          assert t[i + 1] == x[0];
        } else {
          assert t[i + 2] == '`';
        }
      } else if i < 4 + |x| {
        assert t[i] == x[i - 4];
      } else {
        assert t[i + 1] == '`';
      }
    }
  }

  /** A one-line code block becomes a fenced block: the fence, a newline,
      the text, a newline and the fence. */
  lemma PreExample(x: Text)
    requires Inline(x) && (x == [] || !IsBlank(x[0])) && |x| <= MaxLength - 8
    ensures FormatHTMLContent("<pre>" + x + "</pre>") == "```\n" + x + "\n```"
  {
    PreRule();
    PreEndRule();
    PreOutputClean(x);
    WrapRewritten("<pre>", x, "</pre>", "```\n", "\n```");
  }
}
